=== FILE: README.md ===
# Drone remote control: flight-safety gate, command adapters and keyboard mappers in Dafny

This project models the control logic of a small remote-control front end for a
Ryze Tello quadcopter. The logic sits between a pygame keyboard window and the
djitellopy vehicle link. It is a handful of small sequential state machines:

- **Flag and telemetry store, and the pre-flight gate** (`AbstractDroneBase`).
  This is a record of flags (connected, flying, safe to land, video streaming)
  and a telemetry snapshot. `can_we_fly` checks it in a fixed order and stops
  at the first failure: not connected, already flying, battery below 10,
  highest temperature above 80.0, lowest temperature below 5.0.
- **Two command adapters.** Each vehicle operation issues its transport
  command(s) or nothing, depending on a gate.
  - `lib/drone/ryze_tello.py` gates on `can_we_fly`, `can_we_land` or the
    connected flag.
  - `drone/ryze_tello.py` gates on the transport's own `is_flying` flag.

  The transport is modelled as the list of commands issued on it (module
  `Transport`). So "which commands were issued" is a postcondition.
- **Keyboard-to-velocity mappers.**
  - The stick-mode controller (`test/pygame-control.py`, module `PygameControl`).
  - The fixed-layout controller (`test/drone-controler.py`, module
    `KeyboardControl`).
  - The three stick-mode keymaps (`StickModes`) they consume.
  - The event dispatcher of the controller library (`controller/rclib.py`,
    module `RcLib`).
- **The search sweep** of `test/drone-search-and-track.py` (module
  `SearchTrack`). One iteration per frame. It issues 1-degree rotations and
  latches the first detection.

Every operation is a pure function that returns the new state and the calls or
commands it emitted. Properties over several calls are lemmas over sequences
of operations or events.

Modules: `Wrappers` (Option/Result), `Transport`, `Keys`, `StickModes`,
`DroneBase`, `LibTello`, `TelloDrone`, `PygameControl`, `KeyboardControl`,
`SearchTrack`, `RcLib`.

Quirks of the code the model keeps:
- In the `lib` adapter, takeoff does not set the flying flag, and
  `MIN_TAKE_OFF_HEIGHT` is never read. Two takeoffs in a row therefore issue
  two transport takeoffs (`LibTello.TakeOffTwiceIssuesTwoTakeoffs`).
- In the `lib` adapter, `land` is gated only on the safe-to-land flag, not on flying. Two lands
  issue two land commands (`LibTello.LandTwiceLandsTwice`).
- In the `lib` adapter, `kill` and `rc_command` are not gated at all.
- In the `lib` adapter, `bye` resets the state and ends the link. It never lands (`LibTello.Bye`).
- The drone speed is 10 in the stick-mode controller and 60 in the
  fixed-layout one.

## Model

| member | source | states |
|---|---|---|
| StickModes.Mode1 | controller/mode/mode1.py:4-15 | Stick mode 1 binds eleven different keys, exactly {UP, DOWN, LEFT, RIGHT, w, s, a, d, t, l, q}. Throttle is on UP/DOWN, yaw on a/d, pitch down/up on w/s, roll on LEFT/RIGHT, and takeoff/land/quit on t/l/q |
| StickModes.Mode2 | controller/mode/mode2.py:4-15 | Stick mode 2 binds the same eleven keys, each to one intent. Throttle is on w/s, yaw on a/d, pitch down/up on UP/DOWN, roll on LEFT/RIGHT, and takeoff/land/quit on t/l/q |
| StickModes.Mode3 | controller/mode/mode3.py:4-15 | Stick mode 3 binds the same eleven keys, each to one intent. Throttle is on UP/DOWN, yaw on LEFT/RIGHT, pitch down/up on w/s, roll on a/d, and takeoff/land/quit on t/l/q |
| StickModes.ModesShareKeysButDiffer | controller/mode/mode1.py:4-15 | The three modes bind the same key set, and no two modes are the same layout |
| DroneBase.Initial | lib/drone/AbstractDroneBase.py:41-57 | The default state: no flag is raised except safe-to-land, and every telemetry field reads 0 |
| DroneBase.Closing | lib/drone/AbstractDroneBase.py:77-91 | `closing` restores every flag and telemetry field to its default, whatever the state was before |
| DroneBase.PreFlightCheck | lib/drone/AbstractDroneBase.py:96-119 | The check passes only if no condition fails. When it refuses, the reason given is a failing condition, and no condition earlier in the order (connected, flying, battery, heat, cold) fails |
| DroneBase.CanWeFly | lib/drone/AbstractDroneBase.py:103-119 | `can_we_fly` holds iff connected, not flying, battery >= 10, highest temperature <= 80.0 and lowest temperature >= 5.0. It is false whenever not connected |
| DroneBase.LoggedMessage | lib/drone/AbstractDroneBase.py:103-119 | A message is logged exactly when the check refuses, and it is the message of the first failing condition, with the texts of lines 25-29. Not connected gives the not-connected message. Connected and flying gives the already-flying message. Connected and grounded, low battery gives the battery message; otherwise overheating gives the overheating message; otherwise too cold gives the too-cold message |
| DroneBase.BoundaryReadingsPass | lib/drone/AbstractDroneBase.py:211-242 | The threshold comparisons are strict, so battery exactly 10, highest exactly 80.0 and lowest exactly 5.0 all pass |
| DroneBase.ZeroTelemetryGrounds | lib/drone/AbstractDroneBase.py:52-57 | An all-zero snapshot reads as low battery and too cold, so the gate stays closed even once connected |
| DroneBase.IsLowBattery | lib/drone/AbstractDroneBase.py:211-220 | `is_low_battery` holds iff the battery reading is strictly below 10, whatever the flags say |
| DroneBase.IsOverHeating | lib/drone/AbstractDroneBase.py:222-231 | `is_over_heating` holds iff the highest temperature is strictly above 80.0 |
| DroneBase.IsCold | lib/drone/AbstractDroneBase.py:233-242 | `is_cold` holds iff the lowest temperature is strictly below 5.0 |
| DroneBase.ThresholdsGateFlight | lib/drone/AbstractDroneBase.py:103-119 | Connected and on the ground, `can_we_fly` holds iff none of `is_low_battery`, `is_over_heating` and `is_cold` holds. Any one of them closes the gate |
| DroneBase.CanWeLand | lib/drone/AbstractDroneBase.py:121-130 | `can_we_land` reports the safe-to-land flag |
| DroneBase.CanLand | lib/drone/AbstractDroneBase.py:251-257 | `can_land` reports the same flag, so it always agrees with `can_we_land` |
| DroneBase.LandGateReadsLastWrite | lib/drone/AbstractDroneBase.py:121-130 | Both landing getters return what `i_can_land` last wrote. A fresh or closed object may land |
| DroneBase.FieldNamed | lib/drone/AbstractDroneBase.py:141-152 | The six names `set_telemetry` recognises, each denoting its field |
| DroneBase.NamesRoundTrip | lib/drone/AbstractDroneBase.py:141-152 | Every telemetry field is reached by its own name |
| DroneBase.Write | lib/drone/AbstractDroneBase.py:141-152 | Writing one field changes that field and no other |
| DroneBase.WriteLaws | lib/drone/AbstractDroneBase.py:141-152 | Writing back the current value is a no-op, and a second write to a field overrides the first |
| DroneBase.SetTelemetry | lib/drone/AbstractDroneBase.py:135-152 | `set_telemetry(name, v)` changes exactly the field the name denotes and no flag. An unrecognised name changes nothing |
| DroneBase.SetTelemetryLaws | lib/drone/AbstractDroneBase.py:135-152 | Setting a field to its current value changes nothing, and a later write by the same name overrides an earlier one |
| DroneBase.ImConnected | lib/drone/AbstractDroneBase.py:181-186 | `im_connected` sets the connected flag and nothing else |
| DroneBase.ImFlying | lib/drone/AbstractDroneBase.py:196-201 | `im_fying` sets the flying flag and nothing else |
| DroneBase.ImVideoStreaming | lib/drone/AbstractDroneBase.py:259-264 | `im_video_streaming` sets the streaming flag and nothing else |
| DroneBase.ICanLand | lib/drone/AbstractDroneBase.py:244-249 | `i_can_land` sets the safe-to-land flag and nothing else |
| DroneBase.LandGateOnlyMovedByItsSetters | lib/drone/AbstractDroneBase.py:121-130 | `can_we_land` and `can_land` both read the safe-to-land flag. Along any run of base operations other than `i_can_land` and `closing`, they keep their value |
| DroneBase.GateIgnoresVideoAndLanding | lib/drone/AbstractDroneBase.py:103-119 | Lowering the connected flag refuses with the not-connected reason. The streaming and landing flags never affect the pre-flight check |
| LibTello.Fresh | lib/drone/AbstractDroneBase.py:41-57 | A drone object before `hello` has issued nothing, is not connected, and may not fly |
| LibTello.UpdateTelemetry | lib/drone/ryze_tello.py:34-39 | Battery, altitude, lowest, highest and average temperature are taken from the transport's readings. The firmware field, the flags and the trace are untouched |
| LibTello.Hello | lib/drone/ryze_tello.py:19-32 | When not connected, `hello` issues one connect, raises the connected flag and takes battery, altitude (barometer), lowest, highest and average temperature from the transport. Every other flag and the firmware field stay as they were. When already connected it issues nothing and changes no flag or reading |
| LibTello.HelloConnectsOnce | lib/drone/ryze_tello.py:26-32 | A second `hello` is a no-op and never issues a second connect |
| LibTello.HelloOpensGateOnGoodReadings | lib/drone/ryze_tello.py:26-32 | After the first `hello`, the gate is open iff the transport's battery and temperature readings are within the thresholds |
| LibTello.Bye | lib/drone/ryze_tello.py:41-43 | `bye` resets the base state to its defaults and issues one end. It never issues a land |
| LibTello.Kill | lib/drone/ryze_tello.py:48-49 | `kill` issues an emergency stop whatever the gates say, and changes no flag |
| LibTello.Restart | lib/drone/ryze_tello.py:51-52 | `restart` issues a reboot unconditionally |
| LibTello.Speed | lib/drone/ryze_tello.py:54-55 | `speed` passes the speed through unconditionally |
| LibTello.TakeOff | lib/drone/ryze_tello.py:57-61 | When `can_we_fly` holds, takeoff issues a transport takeoff, followed by `move_up(altitude)` iff an altitude was given. Otherwise it issues nothing. It never changes the flying flag |
| LibTello.TakeOffTwiceIssuesTwoTakeoffs | lib/drone/ryze_tello.py:57-61 | Because nothing raises the flying flag, two takeoffs in a row issue two transport takeoffs |
| LibTello.Land | lib/drone/ryze_tello.py:63-67 | `land` issues one land iff the safe-to-land flag is set. It does not look at the flying flag |
| LibTello.LandTwiceLandsTwice | lib/drone/ryze_tello.py:63-67 | Two lands in a row issue two land commands |
| LibTello.MoveCommandInjective | lib/drone/ryze_tello.py:69-99 | Each movement maps to its own transport command: different movements or amounts give different commands |
| LibTello.Movement | lib/drone/ryze_tello.py:69-99 | Each of `ascend`...`rotate_right` appends exactly its matching command iff `can_we_fly`, and otherwise appends nothing. No flag changes |
| LibTello.MovementsAllOrNothing | lib/drone/ryze_tello.py:69-99 | A run of movements either issues every command in order, or (gate closed) issues none and changes nothing |
| LibTello.RcCommand | lib/drone/ryze_tello.py:101-102 | `rc_command` is forwarded unconditionally, with channels in (roll, pitch, throttle, yaw) order |
| LibTello.StartVideoStreaming | lib/drone/ryze_tello.py:104-110 | When connected, it issues streamoff then streamon and raises the streaming flag. When disconnected it does nothing |
| LibTello.StopVideoStreaming | lib/drone/ryze_tello.py:112-115 | When connected, it issues streamoff and lowers the streaming flag. When disconnected it does nothing |
| LibTello.VideoStartStop | lib/drone/ryze_tello.py:104-115 | Start then stop, while connected, leaves streaming off. The transport sees streamoff, streamon and one more streamoff |
| LibTello.GetVideoFrames | lib/drone/ryze_tello.py:117-119 | A frame source is returned iff connected and streaming |
| LibTello.GetBattery | lib/drone/ryze_tello.py:121-123 | The battery reading is returned iff connected |
| LibTello.GetTemperature | lib/drone/ryze_tello.py:125-127 | The average temperature is returned iff connected |
| LibTello.GetAltitude | lib/drone/ryze_tello.py:129-131 | The barometer reading is returned iff connected |
| LibTello.TraceOnlyGrows | lib/drone/ryze_tello.py:19-131 | No adapter operation removes a command already issued |
| LibTello.NeverMarkedFlying | lib/drone/ryze_tello.py:19-131 | No sequence of adapter operations ever raises the flying flag |
| LibTello.DisconnectedIssuesNoFlightCommand | lib/drone/ryze_tello.py:57-99 | Without a connection, takeoff and every movement are no-ops |
| TelloDrone.Create | drone/ryze_tello.py:12-22 | Construction zeroes all four velocities, disables RC and issues connect, set_speed(10) and streamoff, in that order |
| TelloDrone.Kill | drone/ryze_tello.py:29-35 | `kill` appends an emergency stop to the trace unconditionally. Nothing else changes, the transport's flying flag included |
| TelloDrone.Bye | drone/ryze_tello.py:37-41 | `bye` issues end only while the transport reports flying |
| TelloDrone.Restart | drone/ryze_tello.py:43-46 | `restart` appends a reboot to the trace unconditionally. Nothing else changes |
| TelloDrone.Speed | drone/ryze_tello.py:48-53 | `speed` appends set_speed with the given value unconditionally. Nothing else changes |
| TelloDrone.TakeOff | drone/ryze_tello.py:55-63 | `take_off(h)` issues takeoff then move_up(h) only while the transport reports not flying. Otherwise it issues nothing |
| TelloDrone.Land | drone/ryze_tello.py:65-69 | `land` issues a land only while the transport reports flying |
| TelloDrone.Translate | drone/ryze_tello.py:71-101 | `up`/`down`/`left`/`right` each issue their single move command only while flying |
| TelloDrone.Rotate | drone/ryze_tello.py:103-113 | While flying, "cw" rotates clockwise and "ccw" counter-clockwise. Any other direction, or not flying, issues nothing |
| TelloDrone.RotateDirections | drone/ryze_tello.py:103-113 | A rotation issues at most one command. It is clockwise iff flying with "cw", and counter-clockwise iff flying with "ccw" |
| TelloDrone.VideoOff | drone/ryze_tello.py:115-118 | `video_off` appends streamoff unconditionally. Nothing else changes |
| TelloDrone.VideoOn | drone/ryze_tello.py:120-123 | `video_on` appends streamon unconditionally. Nothing else changes |
| TelloDrone.StepFrame | drone/ryze_tello.py:29-123 | Every wrapper operation only appends to the trace (at most two commands). It leaves the velocities and the RC flag unchanged, and never writes the transport's flying flag |
| TelloDrone.RunFrame | drone/ryze_tello.py:29-123 | A run of calls, each made with the flying flag the transport reports at that moment, only appends to the trace and never changes the velocities or the RC flag |
| TelloDrone.GroundedIgnoresFlightOps | drone/ryze_tello.py:37-113 | While the transport reports the ground, any sequence of land, bye, translations and rotations issues nothing |
| TelloDrone.AirborneNeverTakesOffAgain | drone/ryze_tello.py:55-63 | While the transport reports flying, any number of `take_off` calls issues nothing |
| TelloDrone.TakeOffThenLand | drone/ryze_tello.py:55-69 | `take_off(h)` on the ground, then `land` once the transport reports flying, issue takeoff, move_up(h) and land, in that order |
| PygameControl.Start | test/pygame-control.py:11-21 | Before the event loop, the velocities are zero except up/down, which is 20, and RC is disabled |
| PygameControl.Update | test/pygame-control.py:82-90 | `update_callback` sends (left_right, forward_back, up_down, yaw) once iff RC is enabled, and nothing otherwise |
| PygameControl.KeyDown | test/pygame-control.py:63-80 | A key-down changes at most one axis, to plus or minus 10. A key bound to no axis (takeoff, land, quit, unbound) changes nothing. Throttle-up sets up/down to +10 |
| PygameControl.KeyDownByIntent | test/pygame-control.py:63-80 | In a distinct keymap, throttle up/down, yaw left/right, pitch up/down and roll left/right set only their own axis, to +, -, -, +, +, -, -, + 10. Takeoff, land and quit change nothing |
| PygameControl.KeyUp | test/pygame-control.py:41-61 | Releasing an axis key first sends the pre-release velocities (when enabled), then zeroes at most that axis. Releasing any other key except takeoff/land does nothing |
| PygameControl.KeyUpByIntent | test/pygame-control.py:41-61 | In a distinct keymap, releasing either key of an axis zeroes exactly that axis after the send. Releasing takeoff calls take_off then enables RC. Releasing land calls land then disables RC |
| PygameControl.ReplayStaysInRange | test/pygame-control.py:21-80 | Under any keymap and any events, every velocity stays in {-10, 0, 10}, with 20 also allowed on up/down |
| PygameControl.TwentyOnlyBeforeThrottle | test/pygame-control.py:21-80 | From the start state, up/down still reads 20 iff no event so far has concerned a throttle key |
| PygameControl.ThrottleNeverReturnsToTwenty | test/pygame-control.py:42-68 | Once up/down has left 20, no event brings it back |
| PygameControl.PressReleaseRestores | test/pygame-control.py:41-80 | Pressing and releasing one axis key from rest restores the controller. The release sends the pressed velocity when enabled |
| PygameControl.YawLeftPressRelease | test/pygame-control.py:45-47 | Yaw-left down gives yaw -10. Releasing it sends yaw -10 once more. The next `update_callback` (e.g. on the next axis-key release) sends yaw 0 |
| PygameControl.OppositeReleaseZeroesAxis | test/pygame-control.py:42-44 | Releasing throttle-down zeroes up/down even while throttle-up is still held |
| PygameControl.NoRcBeforeTakeoff | test/pygame-control.py:54-61 | Until the takeoff key is released, RC stays disabled and no velocities are sent, under any keymap |
| KeyboardControl.KeyDown | test/drone-controler.py:122-146 | Key-down sets exactly one axis to +/-60 by the arrow/w/s/a/d layout. Any other key changes nothing |
| KeyboardControl.KeyUp | test/drone-controler.py:148-170 | Releasing either key of an axis zeroes only that axis. Releasing t issues takeoff and enables RC. Releasing l issues land and disables RC |
| KeyboardControl.Update | test/drone-controler.py:172-179 | `update` sends (lr, fb, ud, yaw) once iff RC is enabled |
| KeyboardControl.Dispatch | test/drone-controler.py:85-96 | A stop is requested iff the event is a window close or an escape key-down. An escape key-down changes no velocity and issues nothing, so it never reaches `keydown`. A timer tick runs `update`. Any other key-down goes to `keydown` and any key-up to `keyup`, with what they return. A window close or any other event changes nothing and issues nothing |
| KeyboardControl.DispatchBatch | test/drone-controler.py:83-96 | The batch requests a stop iff it holds a window close or an escape key-down |
| KeyboardControl.KeyDownStaysInRange | test/drone-controler.py:131-146 | A key press keeps every velocity in {-60, 0, 60} |
| KeyboardControl.KeyUpStaysInRange | test/drone-controler.py:157-170 | A key release keeps every velocity in {-60, 0, 60} |
| KeyboardControl.DispatchStaysInRange | test/drone-controler.py:85-96 | One dispatched event keeps every velocity in {-60, 0, 60} |
| KeyboardControl.BatchStaysInRange | test/drone-controler.py:83-96 | Any batch keeps every velocity in {-60, 0, 60} |
| KeyboardControl.TakeoffLandOnlyOnRelease | test/drone-controler.py:131-170 | Across a batch, takeoffs issued equal t key releases and lands issued equal l key releases. No key-down or tick issues either |
| KeyboardControl.BatchSplit | test/drone-controler.py:85-96 | Dispatching `a + b` is dispatching `a`, then `b` from the pilot `a` leaves: the commands are concatenated and a stop in either part stops. Velocities carry over from one event to the next |
| KeyboardControl.TickSendsCurrentVelocities | test/drone-controler.py:85-87 | A timer tick after some events sends the velocities those events left, not the ones the batch started from |
| KeyboardControl.ForBackFollowsLastKey | test/drone-controler.py:131-159 | After a batch, the forward/back velocity is the one the last up/down key event wrote: 60 for up pressed, -60 for down pressed, 0 for either released. With no such event it is unchanged. This is checked against a reference read from the end of the batch |
| KeyboardControl.EscapeStopsWithoutKeyDown | test/drone-controler.py:90-94 | A batch that opens with an escape key-down stops. Apart from the stop, it ends exactly as the rest of the batch alone would, so the rest is still dispatched |
| SearchTrack.Initial | test/drone-search-and-track.py:30-33 | The scanner starts grounded, with nothing detected, idx 0 and the sweep turning left |
| SearchTrack.Scan | test/drone-search-and-track.py:71-87 | While flying and idx < 160 with nothing detected, a step increments idx and issues one 1-degree rotation in the sweep's direction. At 160 it resets idx and turns (or stays) right. Otherwise it does nothing |
| SearchTrack.HandleKeys | test/drone-search-and-track.py:89-97 | A landing key at the head of the batch grounds the scanner and calls only land. A takeoff key at the head calls takeoff(20) first. A flying scanner stays flying without a landing key. Without either key nothing changes. Keys never rotate and never touch idx, direction or the latch |
| SearchTrack.KeysAnywhereCalls | test/drone-search-and-track.py:89-97 | Wherever the keys sit in the batch, the calls are one takeoff(20) per takeoff key before the first landing key, then land if the batch has a landing key. Keys after the first landing key are dropped |
| SearchTrack.LandingAnywhereGrounds | test/drone-search-and-track.py:94-97 | A landing key anywhere in the batch leaves the scanner grounded, with idx, direction and latch unchanged |
| SearchTrack.TakeoffAnywhereFlies | test/drone-search-and-track.py:90-93 | Without a landing key, the scanner ends flying iff it was flying or a takeoff key was released anywhere in the batch |
| SearchTrack.Latch | test/drone-search-and-track.py:113-115 | The detected flag is set iff it was set or this frame has a detection |
| SearchTrack.Iterate | test/drone-search-and-track.py:65-99 | Low battery exits before anything else, with no call. Otherwise the iteration exits iff the frame reader stopped. Its calls are the sweep's calls followed by the key calls, the keys acting on the scanner the sweep left. A stopped reader leaves that scanner as it is; otherwise the detection latch is applied to it. Grounded, without a takeoff key, it issues no rotation |
| SearchTrack.QuietFrameRotatesOnce | test/drone-search-and-track.py:71-78 | Flying, with nothing detected and idx below 160, a frame with no keys, no detection and no exit rotates 1 degree in the sweep direction and advances idx by one |
| SearchTrack.QuietFramesSweep | test/drone-search-and-track.py:65-99 | From such a state, `n` quiet frames with idx + n at most 160 issue exactly `n` 1-degree rotations in the sweep direction and advance idx by `n`, without leaving the loop |
| SearchTrack.Run | test/drone-search-and-track.py:65-141 | Leaving the loop always ends with a call to `bye` |
| SearchTrack.RunKeepsIndexAndDirection | test/drone-search-and-track.py:73-87 | idx stays in [0, 160], and a right sweep never turns back left |
| SearchTrack.DetectionLatches | test/drone-search-and-track.py:72-115 | Once set, the detected flag stays set and no further rotation is issued |
| SearchTrack.DetectionSetsLatch | test/drone-search-and-track.py:113-115 | A frame with a detection sets the latch unless the loop is left first |
| SearchTrack.GroundedNeverRotates | test/drone-search-and-track.py:71-97 | Grounded, and with no takeoff key released, no rotation is ever issued and the scanner stays grounded |
| SearchTrack.NoTakeoffStaysGrounded | test/drone-search-and-track.py:89-97 | Keys without takeoff never raise the flying flag |
| SearchTrack.LowBatteryExits | test/drone-search-and-track.py:67-69 | Low battery at the top of an iteration leaves the loop before scanning. The only call is `bye` |
| SearchTrack.TakeoffAndLandingKeys | test/drone-search-and-track.py:90-97 | Takeoff release gives flying and takeoff(20). Landing release gives grounded and land |
| RcLib.SetKeymap | controller/rclib.py:23-29 | `keymap(None)` leaves the keymap unchanged. Any other value replaces it and nothing else |
| RcLib.Store | controller/rclib.py:31-53 | A callback slot takes the argument iff it is callable, and otherwise keeps the previous callback |
| RcLib.SetEventKeyUp | controller/rclib.py:31-37 | `set_event_keyup` updates only the key-up slot, by that rule |
| RcLib.SetEventKeyDown | controller/rclib.py:39-45 | `set_event_keydown` updates only the key-down slot, by that rule |
| RcLib.SetEventUpdate | controller/rclib.py:47-53 | `set_event_update` updates only the update slot, by that rule |
| RcLib.DispatchEvent | controller/rclib.py:64-72 | A key-down fails without a keymap. Otherwise it marks quit iff it is the quit key. It is forwarded to the key-down callback when one is set, quit key included, and otherwise dispatches nothing. A key-up goes to the key-up callback when one is set. Other events are ignored |
| RcLib.DispatchBatch | controller/rclib.py:64-72 | A batch makes at most one dispatch per event, and never through the update slot. It fails iff there is no keymap and it holds a key-down. The failure keeps the key-up dispatches already made. When it succeeds, it marks quit iff a keymap is loaded and the batch holds a key-down of its quit key, anywhere in the batch |
| RcLib.FailureKeepsEarlierDispatches | controller/rclib.py:64-72 | Without a keymap, a batch fails at its first key-down. The failure records exactly the dispatches of the events before it |
| RcLib.Run | controller/rclib.py:62-75 | The loop consumes every batch unless it stopped, and never dispatches through the update slot. It fails only without a keymap, and the failure keeps every dispatch made before it |
| RcLib.RunStopsAtFirstQuit | controller/rclib.py:62-72 | With a keymap, the loop stops iff some batch holds a quit key-down. It takes in the batches up to and including the first such batch, or all of them if there is none. Its dispatches are exactly those batches' dispatches, each batch dispatched on its own, one after another |
| RcLib.RunFailureKeepsEarlierBatches | controller/rclib.py:62-72 | A failure in a later batch keeps the dispatches of the earlier batches, followed by those of the failing batch |
| RcLib.BatchForwardsEveryKeyEvent | controller/rclib.py:64-72 | With a keymap and both key callbacks set, a batch forwards exactly its key events, in order |
| RcLib.QuitStopsAfterBatch | controller/rclib.py:62-67 | Quit takes effect only after its whole batch is dispatched. Later batches are never examined |
| RcLib.QuitKeyStillForwarded | controller/rclib.py:65-69 | A quit key-down sets the stop flag and still reaches the key-down callback |
| RcLib.UpdateCallbackNeverRuns | controller/rclib.py:47-75 | After the set-up the stick-mode controller performs, the update callback is stored but no run ever invokes it |
| RcLib.RunNeverFailsWithKeymap | controller/rclib.py:62-72 | With a keymap loaded, the loop never fails |
| RcLib.BatchNeverFailsWithKeymap | controller/rclib.py:64-72 | With a keymap loaded, no batch fails |

## Left out

- test/test.py: frame display and a cascade-classifier call, with no control logic.
- Window creation, drawing, `display.update`, FPS timers and every `time.sleep`. This includes the delay of `land(delay)`, the 2 s pause in `take_off` and the 5 s pause after a right sweep. These are UI and timing only.
- OpenCV detection, colour conversion and frame rotation. Detection is reduced to the number of detections in a frame.
- The djitellopy link itself. Its readings are a `Sensors` parameter. Its reaction to commands is not modelled, including how it updates its own `is_flying` flag. `TelloDrone.Run` therefore takes, with each call, the value of that flag the transport reports at that moment. No wrapper operation writes it.
- `AbstractDroneBase.setup`, `log` and `info`: logger set-up and printing. Which message would be logged is modelled (`DroneBase.LoggedMessage`); the logging is not.
- `instance()` of lib/drone/ryze_tello.py (lines 45-46) returns the link object, with no logic; it is not modelled.
- `hello()` of drone/ryze_tello.py returns the link object. `video_stream_data`, `is_video_stream_stopped`, `get_battery`, `get_altitude`, `get_flight_time` and `get_temperature` there pass the link's answers through without logic. None of them is modelled.
- The `is_flying` method at drone/ryze_tello.py:135. The attribute set at :22 shadows it, so it can never be called, and the wrapper's gates never read the attribute.
- LibTello.Fresh: before `hello`, the source has no link object and no logger, so every adapter operation raises an attribute error. The model instead runs those operations on the class defaults (closed gates, empty trace) and does not model the crash.
- LibTello.Hello: each call runs `setup` again and replaces the link object with a new `Tello()`, connected or not. The model has one link, the command trace, and keeps it across calls.
- The broken wiring of the test scripts. Callbacks run against an abstract drone (a list of calls) instead of reproducing the crashes:
  - the undefined `self.tello` in test/drone-controler.py, and its attributes that are never initialised: the four velocities and `send_rc_control`. The first timer tick reads `send_rc_control` at line 177 and so would raise. `KeyboardControl` starts from whatever `Pilot` the caller supplies;
  - `DRONE.connect()` and `take_off()` without a height in test/pygame-control.py.
- The `frame_read.stopped` exit of test/drone-controler.py, and its display of battery text: display concerns outside the event dispatch.
- The search loop's start-up (`hello`, `info`, `start_video_streaming`, `get_video_frames`) and its display of statistics. The low-battery flag each frame sees is a field of `SearchTrack.Frame`, computed by the caller with `DroneBase.IsLowBattery`.
- Telemetry values are `real` throughout. `set_telemetry` accepts any Python value; every reading the code stores is numeric.
- PygameControl.KeyDown: the per-intent effects of the eight axis keys are stated for distinct keymaps only (in `PygameControl.KeyDownByIntent`). All three stick modes are distinct. For a keymap that binds one key twice, only the first branch of the chain is stated.
- PygameControl.KeyUp: likewise, the per-intent effects of yaw, pitch, roll, takeoff and land releases are stated for distinct keymaps only (in `PygameControl.KeyUpByIntent`).

=== FILE: drone_base.dfy ===
/** The vehicle-independent part of a drone object: its flags, its telemetry
    snapshot, and the pre-flight check every gated command goes through
    (lib/drone/AbstractDroneBase.py). */
module DroneBase {
  import opened Wrappers

  /** Declared by the base class but never read by any operation. */
  const MinTakeOffHeight: int := 70
  const LowBattThreshold: real := 10.0
  const HighTempThreshold: real := 80.0
  const LowTempThreshold: real := 5.0

  /** The telemetry snapshot. `set_telemetry` accepts any value; every
      reading is a number, held here as a `real`. */
  datatype Telemetry = Telemetry(
    battery: real,
    averageTemp: real,
    highTemp: real,
    lowTemp: real,
    altitude: real,
    firmwareVersion: real)

  /** Flags and telemetry of one drone object. `lowBat`, `hot` and `cold`
      are private flags that only `closing` writes and nothing reads. */
  datatype State = State(
    connected: bool,
    flying: bool,
    lowBat: bool,
    hot: bool,
    cold: bool,
    safeToLand: bool,
    videoStreaming: bool,
    telemetry: Telemetry)

  const ZeroTelemetry: Telemetry := Telemetry(0.0, 0.0, 0.0, 0.0, 0.0, 0.0)

  /** The class-level defaults, which are also what `closing` restores. */
  function Initial(): (s: State)
    ensures !s.connected && !s.flying && !s.videoStreaming && s.safeToLand
    ensures !s.lowBat && !s.hot && !s.cold
    ensures s.telemetry.battery == 0.0 && s.telemetry.averageTemp == 0.0
    ensures s.telemetry.highTemp == 0.0 && s.telemetry.lowTemp == 0.0
    ensures s.telemetry.altitude == 0.0 && s.telemetry.firmwareVersion == 0.0
  {
    State(false, false, false, false, false, true, false, ZeroTelemetry)
  }

  /** `closing`: every flag and every telemetry field back to its default,
      whatever the state was. */
  function Closing(s: State): (r: State)
    ensures r == Initial()
  {
    State(false, false, false, false, false, true, false, ZeroTelemetry)
  }

  // ---------------------------------------------------------------------
  // Threshold predicates (is_low_battery, is_over_heating, is_cold)
  // ---------------------------------------------------------------------

  /** `is_low_battery`: strictly below the threshold; the connection and
      flight flags play no part. */
  function IsLowBattery(s: State): (low: bool)
    ensures low <==> Fails(s, LowBattery)
  {
    s.telemetry.battery < LowBattThreshold
  }

  /** `is_over_heating`: the highest temperature strictly above the threshold. */
  function IsOverHeating(s: State): (hot: bool)
    ensures hot <==> Fails(s, OverHeating)
  {
    s.telemetry.highTemp > HighTempThreshold
  }

  /** `is_cold`: the lowest temperature strictly below the threshold. */
  function IsCold(s: State): (cold: bool)
    ensures cold <==> Fails(s, TooCold)
  {
    s.telemetry.lowTemp < LowTempThreshold
  }

  // ---------------------------------------------------------------------
  // Pre-flight check (can_we_fly)
  // ---------------------------------------------------------------------

  /** Why the pre-flight check refused; each reason has its own log message. */
  datatype Refusal = NotConnected | AlreadyFlying | LowBattery | OverHeating | TooCold

  datatype Verdict = Clear | Refused(reason: Refusal)

  /** The log message written when the check refuses for `r`. */
  function Message(r: Refusal): string {
    match r
    case NotConnected => "You are not connected to the drone."
    case AlreadyFlying => "You are already flying."
    case LowBattery => "Battery too low, please charge."
    case OverHeating => "Drone is overheating, please cool it down in room temperature and try again."
    case TooCold => "Drone is too cold to start."
  }

  /** Whether condition `r` alone, checked in isolation, fails in `s`. */
  predicate Fails(s: State, r: Refusal) {
    match r
    case NotConnected => !s.connected
    case AlreadyFlying => s.flying
    case LowBattery => s.telemetry.battery < 10.0
    case OverHeating => s.telemetry.highTemp > 80.0
    case TooCold => s.telemetry.lowTemp < 5.0
  }

  /** The order in which the check examines the conditions. */
  function Priority(r: Refusal): nat {
    match r
    case NotConnected => 0
    case AlreadyFlying => 1
    case LowBattery => 2
    case OverHeating => 3
    case TooCold => 4
  }

  /** The pre-flight check with its diagnosis: conditions are examined in
      priority order and the first one that fails is reported. */
  function PreFlightCheck(s: State): (v: Verdict)
    ensures v.Clear? ==> forall r: Refusal :: !Fails(s, r)
    ensures v.Refused? ==> Fails(s, v.reason)
    ensures v.Refused? ==> forall r: Refusal :: Priority(r) < Priority(v.reason) ==> !Fails(s, r)
  {
    if !s.connected then Refused(NotConnected)
    else if s.flying then Refused(AlreadyFlying)
    else if IsLowBattery(s) then Refused(LowBattery)
    else if IsOverHeating(s) then Refused(OverHeating)
    else if IsCold(s) then Refused(TooCold)
    else Clear
  }

  /** `can_we_fly`: connected, not yet flying, battery at least 10 %, highest
      temperature at most 80.0 and lowest temperature at least 5.0 degrees. */
  function CanWeFly(s: State): (ok: bool)
    ensures ok <==> s.connected && !s.flying && s.telemetry.battery >= 10.0
                    && s.telemetry.highTemp <= 80.0 && s.telemetry.lowTemp >= 5.0
    ensures !s.connected ==> !ok
  {
    PreFlightCheck(s).Clear?
  }

  /** The message `can_we_fly` logs, if any. */
  function LoggedMessage(s: State): (msg: string)
    ensures msg == "" <==> CanWeFly(s)
    ensures !s.connected ==> msg == "You are not connected to the drone."
    ensures s.connected && s.flying ==> msg == "You are already flying."
    ensures s.connected && !s.flying && IsLowBattery(s) ==> msg == "Battery too low, please charge."
    ensures s.connected && !s.flying && !IsLowBattery(s) && IsOverHeating(s) ==>
      msg == "Drone is overheating, please cool it down in room temperature and try again."
    ensures s.connected && !s.flying && !IsLowBattery(s) && !IsOverHeating(s) && IsCold(s) ==>
      msg == "Drone is too cold to start."
  {
    match PreFlightCheck(s)
    case Clear => ""
    case Refused(r) => Message(r)
  }

  /** Once connected and on the ground, the drone may fly exactly when none
      of the three threshold predicates holds. */
  lemma ThresholdsGateFlight(s: State)
    ensures s.connected && !s.flying ==>
      (CanWeFly(s) <==> !IsLowBattery(s) && !IsOverHeating(s) && !IsCold(s))
    ensures IsLowBattery(s) || IsOverHeating(s) || IsCold(s) ==> !CanWeFly(s)
  {
  }

  /** The thresholds are not strict at the boundary: battery exactly 10,
      highest temperature exactly 80.0 and lowest exactly 5.0 all pass. */
  lemma BoundaryReadingsPass(s: State)
    requires s.connected && !s.flying
    requires s.telemetry.battery == 10.0 && s.telemetry.highTemp == 80.0 && s.telemetry.lowTemp == 5.0
    ensures CanWeFly(s)
    ensures !IsLowBattery(s) && !IsOverHeating(s) && !IsCold(s)
  {
  }

  /** A reset (or never refreshed) snapshot reads as low battery and too
      cold, so the check refuses even once the connected flag is raised. */
  lemma ZeroTelemetryGrounds(s: State)
    requires s.telemetry == ZeroTelemetry
    ensures IsLowBattery(s) && IsCold(s) && !IsOverHeating(s)
    ensures !CanWeFly(s)
    ensures s.connected && !s.flying ==> PreFlightCheck(s) == Refused(LowBattery)
  {
  }

  // ---------------------------------------------------------------------
  // Landing gate (can_we_land, can_land)
  // ---------------------------------------------------------------------

  /** `can_we_land`: the safe-to-land flag as `i_can_land` last left it. */
  function CanWeLand(s: State): (ok: bool)
    ensures ok <==> s.safeToLand
  {
    s.safeToLand
  }

  /** `can_land`: the same flag, read through a property. */
  function CanLand(s: State): (ok: bool)
    ensures ok <==> s.safeToLand
    ensures ok == CanWeLand(s)
  {
    s.safeToLand
  }

  /** Both landing getters report what `i_can_land` last wrote, and a
      fresh or closed object may land. */
  lemma LandGateReadsLastWrite(s: State, x: bool)
    ensures CanWeLand(ICanLand(s, x)) == x && CanLand(ICanLand(s, x)) == x
    ensures CanWeLand(Initial()) && CanWeLand(Closing(s))
  {
  }

  // ---------------------------------------------------------------------
  // Telemetry store (set_telemetry)
  // ---------------------------------------------------------------------

  /** The six telemetry fields. */
  datatype Field = Battery | Altitude | AverageTemp | HighTemp | LowTemp | FirmwareVersion

  /** The name `set_telemetry` recognises for each field. */
  function NameOf(f: Field): string {
    match f
    case Battery => "battery"
    case Altitude => "altitude"
    case AverageTemp => "average_temp"
    case HighTemp => "high_temp"
    case LowTemp => "low_temp"
    case FirmwareVersion => "drone_firmware_version"
  }

  /** The field a name denotes, if any. */
  function FieldNamed(name: string): (f: Option<Field>)
    ensures f.Some? ==> NameOf(f.value) == name
  {
    if name == "battery" then Some(Battery)
    else if name == "altitude" then Some(Altitude)
    else if name == "average_temp" then Some(AverageTemp)
    else if name == "high_temp" then Some(HighTemp)
    else if name == "low_temp" then Some(LowTemp)
    else if name == "drone_firmware_version" then Some(FirmwareVersion)
    else None
  }

  /** Every field is reachable by its own name. */
  lemma NamesRoundTrip(f: Field)
    ensures FieldNamed(NameOf(f)) == Some(f)
  {
  }

  function Read(t: Telemetry, f: Field): real {
    match f
    case Battery => t.battery
    case Altitude => t.altitude
    case AverageTemp => t.averageTemp
    case HighTemp => t.highTemp
    case LowTemp => t.lowTemp
    case FirmwareVersion => t.firmwareVersion
  }

  /** Two snapshots are equal when every field reads the same. */
  lemma TelemetryExtensional(t: Telemetry, u: Telemetry)
    requires forall f :: Read(t, f) == Read(u, f)
    ensures t == u
  {
    assert Read(t, Battery) == Read(u, Battery);
    assert Read(t, Altitude) == Read(u, Altitude);
    assert Read(t, AverageTemp) == Read(u, AverageTemp);
    assert Read(t, HighTemp) == Read(u, HighTemp);
    assert Read(t, LowTemp) == Read(u, LowTemp);
    assert Read(t, FirmwareVersion) == Read(u, FirmwareVersion);
  }

  /** Writes one field. */
  function Write(t: Telemetry, f: Field, v: real): (u: Telemetry)
    ensures forall g :: Read(u, g) == if g == f then v else Read(t, g)
  {
    match f
    case Battery => t.(battery := v)
    case Altitude => t.(altitude := v)
    case AverageTemp => t.(averageTemp := v)
    case HighTemp => t.(highTemp := v)
    case LowTemp => t.(lowTemp := v)
    case FirmwareVersion => t.(firmwareVersion := v)
  }

  /** `set_telemetry(name, v)`: the field the name denotes now reads `v`,
      every other field and every flag is as before; a name that denotes
      no field changes nothing. */
  function SetTelemetry(s: State, name: string, v: real): (r: State)
    ensures r.(telemetry := s.telemetry) == s
    ensures forall f :: Read(r.telemetry, f) == if NameOf(f) == name then v else Read(s.telemetry, f)
    ensures FieldNamed(name) == None ==> r == s
  {
    match FieldNamed(name)
    case None => s
    case Some(f) => s.(telemetry := Write(s.telemetry, f, v))
  }

  /** Writing a field by its own name is a plain write of that field. */
  lemma SetByName(s: State, f: Field, v: real)
    ensures SetTelemetry(s, NameOf(f), v) == s.(telemetry := Write(s.telemetry, f, v))
  {
    NamesRoundTrip(f);
  }

  /** Writing back the value a field reads changes nothing; a second write
      to the same field overrides the first. */
  lemma WriteLaws(t: Telemetry, f: Field, v: real, w: real)
    ensures Write(t, f, Read(t, f)) == t
    ensures Write(Write(t, f, v), f, w) == Write(t, f, w)
  {
    TelemetryExtensional(Write(t, f, Read(t, f)), t);
    TelemetryExtensional(Write(Write(t, f, v), f, w), Write(t, f, w));
  }

  /** The same two laws for `set_telemetry` under a field's own name. */
  lemma SetTelemetryLaws(s: State, f: Field, v: real, w: real)
    ensures SetTelemetry(s, NameOf(f), Read(s.telemetry, f)) == s
    ensures SetTelemetry(SetTelemetry(s, NameOf(f), v), NameOf(f), w) == SetTelemetry(s, NameOf(f), w)
  {
    WriteLaws(s.telemetry, f, v, w);
    SetByName(s, f, Read(s.telemetry, f));
    SetByName(s, f, v);
    SetByName(s.(telemetry := Write(s.telemetry, f, v)), f, w);
    SetByName(s, f, w);
  }

  // ---------------------------------------------------------------------
  // Flag setters
  // ---------------------------------------------------------------------

  /** `im_connected`. */
  function ImConnected(s: State, x: bool): (r: State)
    ensures r.connected == x && r.(connected := s.connected) == s
  {
    s.(connected := x)
  }

  /** `im_fying` (sic). */
  function ImFlying(s: State, x: bool): (r: State)
    ensures r.flying == x && r.(flying := s.flying) == s
  {
    s.(flying := x)
  }

  /** `im_video_streaming`. */
  function ImVideoStreaming(s: State, x: bool): (r: State)
    ensures r.videoStreaming == x && r.(videoStreaming := s.videoStreaming) == s
  {
    s.(videoStreaming := x)
  }

  /** `i_can_land`. */
  function ICanLand(s: State, x: bool): (r: State)
    ensures r.safeToLand == x && r.(safeToLand := s.safeToLand) == s
  {
    s.(safeToLand := x)
  }

  /** Every state-changing entry point of the base class. */
  datatype BaseOp =
    | SetConnected(connected: bool)
    | SetFlying(flying: bool)
    | SetVideoStreaming(streaming: bool)
    | SetSafeToLand(safe: bool)
    | SetField(name: string, value: real)
    | Close

  function Apply(s: State, op: BaseOp): State {
    match op
    case SetConnected(x) => ImConnected(s, x)
    case SetFlying(x) => ImFlying(s, x)
    case SetVideoStreaming(x) => ImVideoStreaming(s, x)
    case SetSafeToLand(x) => ICanLand(s, x)
    case SetField(n, v) => SetTelemetry(s, n, v)
    case Close => Closing(s)
  }

  function ApplyAll(s: State, ops: seq<BaseOp>): State
    decreases |ops|
  {
    if ops == [] then s else ApplyAll(Apply(s, ops[0]), ops[1..])
  }

  /** The landing gate reads the safe-to-land flag, and only `i_can_land`
      and `closing` move it: along any run of other operations both
      `can_we_land` and `can_land` keep their value. */
  lemma {:induction false} LandGateOnlyMovedByItsSetters(s: State, ops: seq<BaseOp>)
    requires forall i :: 0 <= i < |ops| ==> !ops[i].SetSafeToLand? && !ops[i].Close?
    ensures CanWeLand(ApplyAll(s, ops)) == CanLand(ApplyAll(s, ops)) == CanWeLand(s)
    decreases |ops|
  {
    if ops != [] {
      LandGateOnlyMovedByItsSetters(Apply(s, ops[0]), ops[1..]);
    }
  }

  /** Lowering the connected flag refuses every flight, whatever the rest of
      the state holds; and the check never reads the video or landing flags. */
  lemma GateIgnoresVideoAndLanding(s: State, x: bool, y: bool)
    ensures PreFlightCheck(ImConnected(s, false)) == Refused(NotConnected)
    ensures PreFlightCheck(ImVideoStreaming(s, x)) == PreFlightCheck(s)
    ensures PreFlightCheck(ICanLand(s, y)) == PreFlightCheck(s)
  {
  }
}

=== FILE: keyboard_control.dfy ===
/** The fixed-layout keyboard controller (test/drone-controler.py): arrow
    keys move forward/back and left/right, w/s climb and descend, a/d yaw,
    each at speed 60 (the script's `S`); t and l take off and land on key release; an
    update tick sends the four velocities while RC control is enabled.
    Its calls go straight to the transport, modelled as Transport commands. */
module KeyboardControl {
  import opened Keys
  import opened Transport

  /** `S` in the script: the velocity each key sets. */
  const Speed: int := 60

  datatype Pilot = Pilot(
    forBack: int,
    leftRight: int,
    upDown: int,
    yaw: int,
    sendRc: bool)

  /** `keydown`: one axis set to plus or minus Speed by the arrow/w/s/a/d
      layout; any other key changes nothing. */
  function KeyDown(p: Pilot, k: Key): (r: Pilot)
    ensures k == Up ==> r == p.(forBack := Speed)
    ensures k == Down ==> r == p.(forBack := -Speed)
    ensures k == LeftArrow ==> r == p.(leftRight := -Speed)
    ensures k == RightArrow ==> r == p.(leftRight := Speed)
    ensures k == W ==> r == p.(upDown := Speed)
    ensures k == S ==> r == p.(upDown := -Speed)
    ensures k == A ==> r == p.(yaw := -Speed)
    ensures k == D ==> r == p.(yaw := Speed)
    ensures k !in {Up, Down, LeftArrow, RightArrow, W, S, A, D} ==> r == p
  {
    match k
    case Up => p.(forBack := Speed)
    case Down => p.(forBack := -Speed)
    case LeftArrow => p.(leftRight := -Speed)
    case RightArrow => p.(leftRight := Speed)
    case W => p.(upDown := Speed)
    case S => p.(upDown := -Speed)
    case A => p.(yaw := -Speed)
    case D => p.(yaw := Speed)
    case _ => p
  }

  /** `keyup`: either key of an axis zeroes that axis; t takes off and enables
      RC; l lands and disables RC; anything else does nothing. */
  function KeyUp(p: Pilot, k: Key): (r: (Pilot, seq<Command>))
    ensures k in {Up, Down} ==> r == (p.(forBack := 0), [])
    ensures k in {LeftArrow, RightArrow} ==> r == (p.(leftRight := 0), [])
    ensures k in {W, S} ==> r == (p.(upDown := 0), [])
    ensures k in {A, D} ==> r == (p.(yaw := 0), [])
    ensures k == T ==> r == (p.(sendRc := true), [Takeoff])
    ensures k == L ==> r == (p.(sendRc := false), [Land])
    ensures k !in {Up, Down, LeftArrow, RightArrow, W, S, A, D, T, L} ==> r == (p, [])
  {
    match k
    case Up | Down => (p.(forBack := 0), [])
    case LeftArrow | RightArrow => (p.(leftRight := 0), [])
    case W | S => (p.(upDown := 0), [])
    case A | D => (p.(yaw := 0), [])
    case T => (p.(sendRc := true), [Takeoff])
    case L => (p.(sendRc := false), [Land])
    case _ => (p, [])
  }

  /** `update`: the four velocities, left/right first, iff RC is enabled. */
  function Update(p: Pilot): (cmds: seq<Command>)
    ensures |cmds| <= 1
    ensures cmds != [] <==> p.sendRc
    ensures cmds != [] ==> cmds[0] == SendRc(Channels(p.leftRight, p.forBack, p.upDown, p.yaw))
  {
    if p.sendRc then [SendRc(Channels(p.leftRight, p.forBack, p.upDown, p.yaw))] else []
  }

  /** The pygame events the run loop tells apart. */
  datatype PygameEvent = Tick | QuitEvent | KeyDownEvent(key: Key) | KeyUpEvent(key: Key) | OtherEvent

  /** Result of dispatching a batch: new pilot, commands, and whether the
      loop is to stop once the batch is done. */
  datatype BatchResult = BatchResult(pilot: Pilot, cmds: seq<Command>, stop: bool)

  /** One event of the run loop's dispatch: a tick updates, a window close
      or an escape key-down requests stopping (escape never reaches
      `keydown`), other key events go to `keydown`/`keyup`. */
  function Dispatch(p: Pilot, e: PygameEvent): (r: BatchResult)
    ensures e == KeyDownEvent(Escape) ==> r == BatchResult(p, [], true)
    ensures r.stop <==> e == QuitEvent || e == KeyDownEvent(Escape)
    ensures e == Tick ==> r == BatchResult(p, Update(p), false)
    ensures e.KeyDownEvent? && e.key != Escape ==> r == BatchResult(KeyDown(p, e.key), [], false)
    ensures e.KeyUpEvent? ==> r == BatchResult(KeyUp(p, e.key).0, KeyUp(p, e.key).1, false)
    ensures e.QuitEvent? || e.OtherEvent? ==> r.pilot == p && r.cmds == []
  {
    match e
    case Tick => BatchResult(p, Update(p), false)
    case QuitEvent => BatchResult(p, [], true)
    case KeyDownEvent(k) => if k == Escape then BatchResult(p, [], true) else BatchResult(KeyDown(p, k), [], false)
    case KeyUpEvent(k) => var (p', cmds) := KeyUp(p, k); BatchResult(p', cmds, false)
    case OtherEvent => BatchResult(p, [], false)
  }

  /** Dispatches a whole batch. A stop request does not cut the batch short:
      later events of the same batch are still dispatched. */
  function DispatchBatch(p: Pilot, events: seq<PygameEvent>): (r: BatchResult)
    ensures r.stop <==> exists i :: 0 <= i < |events| && (events[i] == QuitEvent || events[i] == KeyDownEvent(Escape))
    decreases |events|
  {
    if events == [] then BatchResult(p, [], false)
    else
      var first := Dispatch(p, events[0]);
      var rest := DispatchBatch(first.pilot, events[1..]);
      assert forall i :: 1 <= i < |events| ==> events[i] == events[1..][i - 1];
      BatchResult(rest.pilot, first.cmds + rest.cmds, first.stop || rest.stop)
  }

  /** Every velocity the controller ever holds is -60, 0 or 60. */
  predicate InRange(p: Pilot) {
    p.forBack in {-Speed, 0, Speed} && p.leftRight in {-Speed, 0, Speed} && p.upDown in {-Speed, 0, Speed} && p.yaw in {-Speed, 0, Speed}
  }

  /** A key press keeps the velocities within {-60, 0, 60}. */
  lemma KeyDownStaysInRange(p: Pilot, k: Key)
    requires InRange(p)
    ensures InRange(KeyDown(p, k))
  {
  }

  /** A key release keeps the velocities within {-60, 0, 60}. */
  lemma KeyUpStaysInRange(p: Pilot, k: Key)
    requires InRange(p)
    ensures InRange(KeyUp(p, k).0)
  {
  }

  /** One event keeps the velocities within {-60, 0, 60}. */
  lemma DispatchStaysInRange(p: Pilot, e: PygameEvent)
    requires InRange(p)
    ensures InRange(Dispatch(p, e).pilot)
  {
    match e
    case KeyDownEvent(k) => KeyDownStaysInRange(p, k);
    case KeyUpEvent(k) => KeyUpStaysInRange(p, k);
    case _ =>
  }

  /** Batches keep the velocities within {-60, 0, 60}. */
  lemma {:induction false} BatchStaysInRange(p: Pilot, events: seq<PygameEvent>)
    requires InRange(p)
    ensures InRange(DispatchBatch(p, events).pilot)
    decreases |events|
  {
    if events != [] {
      DispatchStaysInRange(p, events[0]);
      BatchStaysInRange(Dispatch(p, events[0]).pilot, events[1..]);
    }
  }

  /** How many events of a batch equal `e`. */
  function Occurrences(events: seq<PygameEvent>, e: PygameEvent): nat
    decreases |events|
  {
    if events == [] then 0 else (if events[0] == e then 1 else 0) + Occurrences(events[1..], e)
  }

  /** The commands one event issues. */
  lemma DispatchCommands(p: Pilot, e: PygameEvent)
    ensures Count(Dispatch(p, e).cmds, Takeoff) == (if e == KeyUpEvent(T) then 1 else 0)
    ensures Count(Dispatch(p, e).cmds, Land) == (if e == KeyUpEvent(L) then 1 else 0)
  {
    var cmds := Dispatch(p, e).cmds;
    if cmds != [] {
      assert |cmds| == 1 && cmds[..0] == [];
    }
  }

  /** Takeoff and land are issued only on key release: every t release
      issues exactly one takeoff and every l release exactly one land, and
      no key-down or tick issues either. */
  lemma {:induction false} TakeoffLandOnlyOnRelease(p: Pilot, events: seq<PygameEvent>)
    ensures Count(DispatchBatch(p, events).cmds, Takeoff) == Occurrences(events, KeyUpEvent(T))
    ensures Count(DispatchBatch(p, events).cmds, Land) == Occurrences(events, KeyUpEvent(L))
    decreases |events|
  {
    if events != [] {
      var first := Dispatch(p, events[0]);
      var rest := DispatchBatch(first.pilot, events[1..]);
      TakeoffLandOnlyOnRelease(first.pilot, events[1..]);
      CountAppend(first.cmds, rest.cmds, Takeoff);
      CountAppend(first.cmds, rest.cmds, Land);
      DispatchCommands(p, events[0]);
    }
  }

  /** Escape pressed first ends the loop after its batch and leaves the
      pilot untouched by that key. */
  lemma EscapeStopsWithoutKeyDown(p: Pilot, rest: seq<PygameEvent>)
    ensures DispatchBatch(p, [KeyDownEvent(Escape)] + rest).stop
    ensures DispatchBatch(p, [KeyDownEvent(Escape)] + rest) == 
      var r := DispatchBatch(p, rest); BatchResult(r.pilot, r.cmds, true)
  {
    assert ([KeyDownEvent(Escape)] + rest)[1..] == rest;
  }

  /** A batch split in two: the second part starts from the pilot the first
      part leaves, so velocities carry over from one event to the next. */
  lemma {:induction false} BatchSplit(p: Pilot, a: seq<PygameEvent>, b: seq<PygameEvent>)
    ensures SplitsAt(p, a, b)
    decreases |a|
  {
    if a == [] {
      assert a + b == b;
    } else {
      BatchSplit(Dispatch(p, a[0]).pilot, a[1..], b);
      SplitStep(p, a, b);
    }
  }

  /** The split law for `a + b` from `p`. */
  predicate SplitsAt(p: Pilot, a: seq<PygameEvent>, b: seq<PygameEvent>) {
    var ra := DispatchBatch(p, a);
    var rb := DispatchBatch(ra.pilot, b);
    DispatchBatch(p, a + b) == BatchResult(rb.pilot, ra.cmds + rb.cmds, ra.stop || rb.stop)
  }

  /** The split law carries over from the tail of `a` to `a`. */
  lemma SplitStep(p: Pilot, a: seq<PygameEvent>, b: seq<PygameEvent>)
    requires a != [] && SplitsAt(Dispatch(p, a[0]).pilot, a[1..], b)
    ensures SplitsAt(p, a, b)
  {
    var first := Dispatch(p, a[0]);
    var ra' := DispatchBatch(first.pilot, a[1..]);
    var rb := DispatchBatch(ra'.pilot, b);
    TailOfAppend(a, b);
    AppendAssoc(first.cmds, ra'.cmds, rb.cmds);
  }

  lemma TailOfAppend<T>(a: seq<T>, b: seq<T>)
    requires a != []
    ensures (a + b)[0] == a[0] && (a + b)[1..] == a[1..] + b
  {
    assert (a + b)[1..] == a[1..] + b;
  }

  lemma InitLast<T>(s: seq<T>)
    requires s != []
    ensures s == s[..|s| - 1] + [s[|s| - 1]]
  {
  }

  lemma AppendAssoc<T>(x: seq<T>, y: seq<T>, z: seq<T>)
    ensures x + (y + z) == (x + y) + z
  {
  }

  /** A batch of one event is that event's dispatch. */
  lemma SingleBatch(p: Pilot, e: PygameEvent)
    ensures DispatchBatch(p, [e]) == Dispatch(p, e)
  {
    assert [e][1..] == [];
  }

  /** A timer tick at the end of a batch sends the velocities the earlier
      events left, not the ones the batch started from. */
  lemma TickSendsCurrentVelocities(p: Pilot, a: seq<PygameEvent>)
    ensures var ra := DispatchBatch(p, a);
      DispatchBatch(p, a + [Tick]).cmds == ra.cmds + Update(ra.pilot)
  {
    BatchSplit(p, a, [Tick]);
    SingleBatch(DispatchBatch(p, a).pilot, Tick);
  }

  /** Forward/back velocity after `events`, read from the last event that
      writes it: an up or down key-down writes plus or minus 60, an up or
      down key-up writes 0; with no such event it is still `v`. */
  function ForBackAfter(v: int, events: seq<PygameEvent>): int
    decreases |events|
  {
    if events == [] then v
    else
      var e := events[|events| - 1];
      if e == KeyDownEvent(Up) then Speed
      else if e == KeyDownEvent(Down) then -Speed
      else if e == KeyUpEvent(Up) || e == KeyUpEvent(Down) then 0
      else ForBackAfter(v, events[..|events| - 1])
  }

  /** The forward/back velocity a batch leaves is the one its last up/down
      key event wrote, or the starting one when it has none. */
  lemma {:induction false} ForBackFollowsLastKey(p: Pilot, events: seq<PygameEvent>)
    ensures DispatchBatch(p, events).pilot.forBack == ForBackAfter(p.forBack, events)
    decreases |events|
  {
    if events != [] {
      var init := events[..|events| - 1];
      var e := events[|events| - 1];
      InitLast(events);
      ForBackFollowsLastKey(p, init);
      ForBackStep(p, init, e);
    }
  }

  /** One more event after `init` writes the forward/back velocity as its
      last-event reading says. */
  lemma ForBackStep(p: Pilot, init: seq<PygameEvent>, e: PygameEvent)
    requires DispatchBatch(p, init).pilot.forBack == ForBackAfter(p.forBack, init)
    ensures DispatchBatch(p, init + [e]).pilot.forBack == ForBackAfter(p.forBack, init + [e])
  {
    BatchSplit(p, init, [e]);
    SingleBatch(DispatchBatch(p, init).pilot, e);
    LastOfAppend(init, e);
  }

  lemma LastOfAppend<T>(s: seq<T>, e: T)
    ensures var t := s + [e]; t != [] && t[|t| - 1] == e && t[..|t| - 1] == s
  {
    var t := s + [e];
    assert t[..|t| - 1] == s;
  }
}

=== FILE: keys.dfy ===
/** Keyboard keys and stick-mode keymaps. A keymap binds the eleven control
    intents of a stick mode to keys. */
module Keys {

  /** The pygame key codes the controllers mention; `Other` stands for every
      remaining key. */
  datatype Key =
    | Up | Down | LeftArrow | RightArrow
    | W | S | A | D
    | T | L | Q
    | Escape
    | Other(code: int)

  /** The intents of one stick mode, named as in the `Keymap` classes. */
  datatype Keymap = Keymap(
    throttleUp: Key,
    throttleDown: Key,
    yawLeft: Key,
    yawRight: Key,
    pitchDown: Key,
    pitchUp: Key,
    rollLeft: Key,
    rollRight: Key,
    takeoff: Key,
    land: Key,
    quit: Key)

  /** The bindings in declaration order. */
  function Bindings(m: Keymap): (b: seq<Key>)
    ensures |b| == 11
  {
    [m.throttleUp, m.throttleDown, m.yawLeft, m.yawRight, m.pitchDown, m.pitchUp,
     m.rollLeft, m.rollRight, m.takeoff, m.land, m.quit]
  }

  /** The keys a keymap binds. */
  function BoundKeys(m: Keymap): set<Key> {
    {m.throttleUp, m.throttleDown, m.yawLeft, m.yawRight, m.pitchDown, m.pitchUp,
     m.rollLeft, m.rollRight, m.takeoff, m.land, m.quit}
  }

  /** No key is bound to two intents: eleven intents, eleven keys. */
  predicate Distinct(m: Keymap) {
    |BoundKeys(m)| == 11
  }

  /** In a distinct keymap the bindings are pairwise different. */
  lemma DistinctPairwise(m: Keymap)
    requires Distinct(m)
    ensures var b := Bindings(m); forall i, j :: 0 <= i < j < |b| ==> b[i] != b[j]
  {
  }

  /** The eleven keys every stick mode of the repository uses. */
  const StandardKeys: set<Key> := {Up, Down, LeftArrow, RightArrow, W, S, A, D, T, L, Q}

  /** A key bound to some axis, as opposed to takeoff, land or quit. */
  predicate IsAxisKey(m: Keymap, k: Key) {
    k in {m.throttleUp, m.throttleDown, m.yawLeft, m.yawRight,
          m.pitchDown, m.pitchUp, m.rollLeft, m.rollRight}
  }
}

=== FILE: lib_tello.dfy ===
/** The Tello adapter built on the base class (lib/drone/ryze_tello.py):
    every vehicle operation either issues its transport command(s) or does
    nothing, depending on the base class's gates. The transport is the list
    of commands issued so far; what it would report is a `Sensors` value. */
module LibTello {
  import opened Wrappers
  import opened Transport
  import DroneBase

  datatype Drone = Drone(base: DroneBase.State, trace: seq<Command>)

  /** What `get_video_frames` hands out: the transport's frame reader. */
  datatype FrameSource = FrameReader

  /** A drone object before `hello`. */
  function Fresh(): (d: Drone)
    ensures d.trace == [] && !d.base.connected && !DroneBase.CanWeFly(d.base)
  {
    Drone(DroneBase.Initial(), [])
  }

  /** `update_telemetry`: five `set_telemetry` calls, in the source's order,
      fed from the transport's readings. */
  function UpdateTelemetry(d: Drone, sensors: Sensors): (r: Drone)
    ensures r.trace == d.trace
    ensures r.base.(telemetry := d.base.telemetry) == d.base
    ensures r.base.telemetry == d.base.telemetry.(
              battery := sensors.battery,
              altitude := sensors.barometer,
              lowTemp := sensors.lowestTemperature,
              highTemp := sensors.highestTemperature,
              averageTemp := sensors.temperature)
    ensures r.base.telemetry.firmwareVersion == d.base.telemetry.firmwareVersion
  {
    var b1 := DroneBase.SetTelemetry(d.base, "battery", sensors.battery);
    var b2 := DroneBase.SetTelemetry(b1, "altitude", sensors.barometer);
    var b3 := DroneBase.SetTelemetry(b2, "low_temp", sensors.lowestTemperature);
    var b4 := DroneBase.SetTelemetry(b3, "high_temp", sensors.highestTemperature);
    var b5 := DroneBase.SetTelemetry(b4, "average_temp", sensors.temperature);
    DroneBase.SetByName(d.base, DroneBase.Battery, sensors.battery);
    DroneBase.SetByName(b1, DroneBase.Altitude, sensors.barometer);
    DroneBase.SetByName(b2, DroneBase.LowTemp, sensors.lowestTemperature);
    DroneBase.SetByName(b3, DroneBase.HighTemp, sensors.highestTemperature);
    DroneBase.SetByName(b4, DroneBase.AverageTemp, sensors.temperature);
    d.(base := b5)
  }

  /** `hello`: when not yet connected, issue connect, raise the connected flag
      and refresh telemetry; when already connected, no command is issued and
      no flag or reading changes. */
  function Hello(d: Drone, sensors: Sensors): (r: Drone)
    ensures d.base.connected ==> r == d
    ensures !d.base.connected ==> r.trace == d.trace + [Connect] && r.base.connected
    ensures !d.base.connected ==>
      r.base == DroneBase.ImConnected(d.base, true).(telemetry := d.base.telemetry.(
                  battery := sensors.battery,
                  altitude := sensors.barometer,
                  lowTemp := sensors.lowestTemperature,
                  highTemp := sensors.highestTemperature,
                  averageTemp := sensors.temperature))
    ensures !d.base.connected ==> r.base.telemetry.battery == sensors.battery
                                  && r.base.telemetry.highTemp == sensors.highestTemperature
                                  && r.base.telemetry.lowTemp == sensors.lowestTemperature
    ensures r.base.flying == d.base.flying && r.base.safeToLand == d.base.safeToLand
    ensures r.base.videoStreaming == d.base.videoStreaming
  {
    if d.base.connected then d
    else
      var connected := Drone(DroneBase.ImConnected(d.base, true), d.trace + [Connect]);
      UpdateTelemetry(connected, sensors)
  }

  /** A second `hello` issues no second connect, whatever the transport reports. */
  lemma HelloConnectsOnce(d: Drone, s1: Sensors, s2: Sensors)
    ensures Hello(Hello(d, s1), s2) == Hello(d, s1)
    ensures Count(Hello(Hello(d, s1), s2).trace, Connect) <= Count(d.trace, Connect) + 1
  {
    if !d.base.connected {
      CountAppend(d.trace, [Connect], Connect);
      assert Count([Connect], Connect) == 1 by {
        assert [Connect][..0] == [];
      }
    }
  }

  /** After connecting, the gate opens exactly when the transport's readings
      are within the thresholds (and the drone is not marked flying). */
  lemma HelloOpensGateOnGoodReadings(d: Drone, sensors: Sensors)
    requires !d.base.connected && !d.base.flying
    ensures DroneBase.CanWeFly(Hello(d, sensors).base) <==>
      sensors.battery >= 10.0 && sensors.highestTemperature <= 80.0 && sensors.lowestTemperature >= 5.0
  {
  }

  /** `bye`: reset every flag and reading, then end the link. It never lands,
      even when the flying flag was set. */
  function Bye(d: Drone): (r: Drone)
    ensures r.base == DroneBase.Initial()
    ensures r.trace == d.trace + [End]
    ensures Command.Land !in r.trace[|d.trace|..]
  {
    Drone(DroneBase.Closing(d.base), d.trace + [End])
  }

  /** `kill`: emergency stop, issued whatever the gates say. */
  function Kill(d: Drone): (r: Drone)
    ensures r.base == d.base && r.trace == d.trace + [Emergency]
  {
    d.(trace := d.trace + [Emergency])
  }

  /** `restart`: reboot, issued unconditionally. */
  function Restart(d: Drone): (r: Drone)
    ensures r.base == d.base && r.trace == d.trace + [Reboot]
  {
    d.(trace := d.trace + [Reboot])
  }

  /** `speed`: set the speed, passed through unconditionally. */
  function Speed(d: Drone, speed: int): (r: Drone)
    ensures r.base == d.base && r.trace == d.trace + [SetSpeed(speed)]
  {
    d.(trace := d.trace + [SetSpeed(speed)])
  }

  /** `takeoff(altitude)`: if the pre-flight check passes, take off and then
      climb `altitude` cm when one is given. The flying flag is left alone. */
  function TakeOff(d: Drone, altitude: Option<int>): (r: Drone)
    ensures r.base == d.base
    ensures !DroneBase.CanWeFly(d.base) ==> r.trace == d.trace
    ensures DroneBase.CanWeFly(d.base) && altitude.None? ==> r.trace == d.trace + [Takeoff]
    ensures DroneBase.CanWeFly(d.base) && altitude.Some? ==>
      r.trace == d.trace + [Takeoff, MoveUp(altitude.value)]
  {
    if DroneBase.CanWeFly(d.base) then
      match altitude
      case None => d.(trace := d.trace + [Takeoff])
      case Some(a) => d.(trace := d.trace + [Takeoff, MoveUp(a)])
    else d
  }

  /** Because nothing raises the flying flag, the "already flying" check
      never catches a second takeoff: two calls issue two takeoffs. */
  lemma TakeOffTwiceIssuesTwoTakeoffs(d: Drone)
    requires DroneBase.CanWeFly(d.base)
    ensures Count(TakeOff(TakeOff(d, None), None).trace, Takeoff) == Count(d.trace, Takeoff) + 2
  {
    assert TakeOff(TakeOff(d, None), None).trace == d.trace + [Takeoff, Takeoff];
    CountAppend(d.trace, [Takeoff, Takeoff], Takeoff);
    assert [Takeoff, Takeoff][..1] == [Takeoff];
    assert [Takeoff][..0] == [];
  }

  /** `land(delay)`: gated on the safe-to-land flag only (not on flying);
      the optional delay is a pause and changes nothing else. */
  function Land(d: Drone, delay: Option<int>): (r: Drone)
    ensures r.base == d.base
    ensures DroneBase.CanWeLand(d.base) ==> r.trace == d.trace + [Command.Land]
    ensures !DroneBase.CanWeLand(d.base) ==> r.trace == d.trace
  {
    if DroneBase.CanWeLand(d.base) then d.(trace := d.trace + [Command.Land]) else d
  }

  /** Landing twice lands twice: the gate does not look at the flying flag. */
  lemma LandTwiceLandsTwice(d: Drone)
    requires DroneBase.CanWeLand(d.base)
    ensures Land(Land(d, None), None).trace == d.trace + [Command.Land, Command.Land]
  {
  }

  /** The eight gated movements. */
  datatype Move = Ascend | Descend | Forward | Backward | Left | Right | RotateLeft | RotateRight

  /** The transport command each movement issues. */
  function MoveCommand(m: Move, v: int): Command {
    match m
    case Ascend => MoveUp(v)
    case Descend => MoveDown(v)
    case Forward => MoveForward(v)
    case Backward => MoveBack(v)
    case Left => MoveLeft(v)
    case Right => MoveRight(v)
    case RotateLeft => RotateCounterClockwise(v)
    case RotateRight => RotateClockwise(v)
  }

  /** Different movements, or different amounts, issue different commands. */
  lemma MoveCommandInjective(m: Move, v: int, n: Move, w: int)
    ensures MoveCommand(m, v) == MoveCommand(n, w) ==> m == n && v == w
  {
  }

  /** `ascend`, `descend`, `forward`, `backward`, `left`, `right`,
      `rotate_left`, `rotate_right`: exactly the matching command when the
      pre-flight check passes, nothing otherwise; no flag changes. */
  function Movement(d: Drone, m: Move, v: int): (r: Drone)
    ensures r.base == d.base
    ensures |r.trace| == |d.trace| + (if DroneBase.CanWeFly(d.base) then 1 else 0)
    ensures r.trace[..|d.trace|] == d.trace
    ensures DroneBase.CanWeFly(d.base) ==> r.trace[|d.trace|] == MoveCommand(m, v)
  {
    if DroneBase.CanWeFly(d.base) then d.(trace := d.trace + [MoveCommand(m, v)]) else d
  }

  /** Runs a list of movements one after another. */
  function Movements(d: Drone, moves: seq<(Move, int)>): Drone
    decreases |moves|
  {
    if moves == [] then d else Movements(Movement(d, moves[0].0, moves[0].1), moves[1..])
  }

  /** Since no movement touches the flags, a run of movements is all or
      nothing: every one of them issues its command, in order, or none does. */
  lemma {:induction false} MovementsAllOrNothing(d: Drone, moves: seq<(Move, int)>)
    ensures Movements(d, moves).base == d.base
    ensures !DroneBase.CanWeFly(d.base) ==> Movements(d, moves) == d
    ensures DroneBase.CanWeFly(d.base) ==>
      Movements(d, moves).trace == d.trace + seq(|moves|, i requires 0 <= i < |moves| => MoveCommand(moves[i].0, moves[i].1))
    decreases |moves|
  {
    if moves != [] {
      var d1 := Movement(d, moves[0].0, moves[0].1);
      MovementsAllOrNothing(d1, moves[1..]);
      if DroneBase.CanWeFly(d.base) {
        assert d1.trace == d.trace + [MoveCommand(moves[0].0, moves[0].1)];
        var rest := seq(|moves[1..]|, i requires 0 <= i < |moves[1..]| => MoveCommand(moves[1..][i].0, moves[1..][i].1));
        var all := seq(|moves|, i requires 0 <= i < |moves| => MoveCommand(moves[i].0, moves[i].1));
        assert all == [MoveCommand(moves[0].0, moves[0].1)] + rest;
      }
    }
  }

  /** `rc_command(roll, pitch, throttle, yaw)`: forwarded unconditionally,
      channels in the same order. */
  function RcCommand(d: Drone, roll: int, pitch: int, throttle: int, yaw: int): (r: Drone)
    ensures r.base == d.base
    ensures r.trace == d.trace + [SendRc(Channels(roll, pitch, throttle, yaw))]
  {
    d.(trace := d.trace + [SendRc(Channels(roll, pitch, throttle, yaw))])
  }

  /** `start_video_streaming`: when connected, a precautionary streamoff,
      then streamon, and the streaming flag raised; otherwise nothing. */
  function StartVideoStreaming(d: Drone): (r: Drone)
    ensures d.base.connected ==> r.trace == d.trace + [StreamOff, StreamOn]
                                 && r.base == DroneBase.ImVideoStreaming(d.base, true)
    ensures !d.base.connected ==> r == d
  {
    if d.base.connected then
      Drone(DroneBase.ImVideoStreaming(d.base, true), d.trace + [StreamOff, StreamOn])
    else d
  }

  /** `stop_video_streaming`: when connected, streamoff and the streaming
      flag lowered; otherwise nothing. */
  function StopVideoStreaming(d: Drone): (r: Drone)
    ensures d.base.connected ==> r.trace == d.trace + [StreamOff]
                                 && r.base == DroneBase.ImVideoStreaming(d.base, false)
    ensures !d.base.connected ==> r == d
  {
    if d.base.connected then
      Drone(DroneBase.ImVideoStreaming(d.base, false), d.trace + [StreamOff])
    else d
  }

  /** Start then stop, while connected: streaming ends lowered, and the
      transport saw the safety streamoff, streamon and one more streamoff. */
  lemma VideoStartStop(d: Drone)
    requires d.base.connected
    ensures !StopVideoStreaming(StartVideoStreaming(d)).base.videoStreaming
    ensures StopVideoStreaming(StartVideoStreaming(d)).trace == d.trace + [StreamOff, StreamOn, StreamOff]
    ensures StopVideoStreaming(StartVideoStreaming(d)).base == DroneBase.ImVideoStreaming(d.base, false)
  {
  }

  /** `get_video_frames`: the frame reader only while connected and streaming. */
  function GetVideoFrames(d: Drone): (r: Option<FrameSource>)
    ensures r.Some? <==> d.base.connected && d.base.videoStreaming
  {
    if d.base.connected && d.base.videoStreaming then Some(FrameReader) else None
  }

  /** `get_battery`: the transport's battery reading, only while connected. */
  function GetBattery(d: Drone, sensors: Sensors): (r: Option<real>)
    ensures r.Some? <==> d.base.connected
    ensures r.Some? ==> r.value == sensors.battery
  {
    if d.base.connected then Some(sensors.battery) else None
  }

  /** `get_temperature`: the transport's average temperature, only while connected. */
  function GetTemperature(d: Drone, sensors: Sensors): (r: Option<real>)
    ensures r.Some? <==> d.base.connected
    ensures r.Some? ==> r.value == sensors.temperature
  {
    if d.base.connected then Some(sensors.temperature) else None
  }

  /** `get_altitude`: the transport's barometer, only while connected. */
  function GetAltitude(d: Drone, sensors: Sensors): (r: Option<real>)
    ensures r.Some? <==> d.base.connected
    ensures r.Some? ==> r.value == sensors.barometer
  {
    if d.base.connected then Some(sensors.barometer) else None
  }

  /** Every operation of the adapter. */
  datatype Op =
    | HelloOp(sensors: Sensors)
    | UpdateTelemetryOp(sensors: Sensors)
    | ByeOp
    | KillOp
    | RestartOp
    | SpeedOp(speed: int)
    | TakeOffOp(altitude: Option<int>)
    | LandOp(delay: Option<int>)
    | MoveOp(move: Move, amount: int)
    | RcOp(roll: int, pitch: int, throttle: int, yaw: int)
    | StartVideoOp
    | StopVideoOp

  function Step(d: Drone, op: Op): Drone {
    match op
    case HelloOp(s) => Hello(d, s)
    case UpdateTelemetryOp(s) => UpdateTelemetry(d, s)
    case ByeOp => Bye(d)
    case KillOp => Kill(d)
    case RestartOp => Restart(d)
    case SpeedOp(v) => Speed(d, v)
    case TakeOffOp(a) => TakeOff(d, a)
    case LandOp(t) => Land(d, t)
    case MoveOp(m, v) => Movement(d, m, v)
    case RcOp(a, b, c, e) => RcCommand(d, a, b, c, e)
    case StartVideoOp => StartVideoStreaming(d)
    case StopVideoOp => StopVideoStreaming(d)
  }

  function Run(d: Drone, ops: seq<Op>): Drone
    decreases |ops|
  {
    if ops == [] then d else Run(Step(d, ops[0]), ops[1..])
  }

  /** The trace only grows: no operation takes back a command. */
  lemma {:induction false} TraceOnlyGrows(d: Drone, ops: seq<Op>)
    ensures d.trace <= Run(d, ops).trace
    decreases |ops|
  {
    if ops != [] {
      var d1 := Step(d, ops[0]);
      assert d.trace <= d1.trace;
      TraceOnlyGrows(d1, ops[1..]);
    }
  }

  /** No operation of the adapter ever raises the flying flag. */
  lemma {:induction false} NeverMarkedFlying(d: Drone, ops: seq<Op>)
    requires !d.base.flying
    ensures !Run(d, ops).base.flying
    decreases |ops|
  {
    if ops != [] {
      NeverMarkedFlying(Step(d, ops[0]), ops[1..]);
    }
  }

  /** Without a connection nothing flies: a disconnected drone issues no
      takeoff or movement, only the ungated commands. */
  lemma DisconnectedIssuesNoFlightCommand(d: Drone, op: Op)
    requires !d.base.connected
    requires op.TakeOffOp? || op.MoveOp?
    ensures Step(d, op) == d
  {
  }
}

=== FILE: pygame_control.dfy ===
/** The stick-mode keyboard controller (test/pygame-control.py): key-down
    events set one velocity axis to plus or minus the drone speed, key-up
    events zero it, takeoff and land fire on key-up, and the velocities are
    sent only while RC control is enabled. The drone it drives is abstract:
    the controller's effect is the list of calls it makes. */
module PygameControl {
  import opened Keys
  import opened Transport

  /** `DRONE_SPEED`. */
  const Speed: int := 10
  /** The up/down velocity `run` starts with. */
  const InitialUpDown: int := 20

  datatype Controller = Controller(
    forwardBack: int,
    leftRight: int,
    upDown: int,
    yaw: int,
    sendRc: bool)

  /** What the controller asks of the drone. */
  datatype Call = TakeOffCall | LandCall | SendRcCall(channels: Channels)

  datatype Reaction = Reaction(controller: Controller, calls: seq<Call>)

  /** The state `run` leaves before the event loop: class defaults, except
      the up/down velocity, which is 20. */
  function Start(): (c: Controller)
    ensures c.forwardBack == 0 && c.leftRight == 0 && c.yaw == 0 && !c.sendRc
    ensures c.upDown == InitialUpDown
  {
    Controller(0, 0, InitialUpDown, 0, false)
  }

  /** The channels sent for a controller, in send_rc_control's order. */
  function ChannelsOf(c: Controller): (ch: Channels)
    ensures ch.leftRight == c.leftRight && ch.forwardBack == c.forwardBack
    ensures ch.upDown == c.upDown && ch.yaw == c.yaw
  {
    Channels(c.leftRight, c.forwardBack, c.upDown, c.yaw)
  }

  /** `update_callback`: one RC send of the current velocities iff RC
      control is enabled, nothing otherwise. */
  function Update(c: Controller): (calls: seq<Call>)
    ensures |calls| <= 1
    ensures calls != [] <==> c.sendRc
    ensures calls != [] ==> calls[0] == SendRcCall(ChannelsOf(c))
  {
    if c.sendRc then [SendRcCall(ChannelsOf(c))] else []
  }

  /** Which axes two controllers disagree on. */
  function ChangedAxes(c: Controller, r: Controller): nat {
    (if c.forwardBack != r.forwardBack then 1 else 0) + (if c.leftRight != r.leftRight then 1 else 0)
    + (if c.upDown != r.upDown then 1 else 0) + (if c.yaw != r.yaw then 1 else 0)
  }

  /** `keydown_callback`: the first intent in the chain that matches sets its
      axis to plus or minus the speed; a key bound to no axis changes nothing. */
  function KeyDown(m: Keymap, c: Controller, k: Key): (r: Controller)
    ensures !IsAxisKey(m, k) ==> r == c
    ensures IsAxisKey(m, k) ==> ChangedAxes(c, r) <= 1 && r.sendRc == c.sendRc
    ensures r.forwardBack in {c.forwardBack, Speed, -Speed} && r.leftRight in {c.leftRight, Speed, -Speed}
    ensures r.upDown in {c.upDown, Speed, -Speed} && r.yaw in {c.yaw, Speed, -Speed}
    ensures k == m.throttleUp ==> r == c.(upDown := Speed)
  {
    if k == m.throttleUp then c.(upDown := Speed)
    else if k == m.throttleDown then c.(upDown := -Speed)
    else if k == m.yawLeft then c.(yaw := -Speed)
    else if k == m.yawRight then c.(yaw := Speed)
    else if k == m.pitchUp then c.(forwardBack := Speed)
    else if k == m.pitchDown then c.(forwardBack := -Speed)
    else if k == m.rollLeft then c.(leftRight := -Speed)
    else if k == m.rollRight then c.(leftRight := Speed)
    else c
  }

  /** With a distinct keymap each axis intent sets its own axis: throttle up
      and down to +/-, yaw left and right to -/+, pitch up and down to +/-,
      roll left and right to -/+ the speed; takeoff, land and quit leave the
      velocities alone. */
  lemma KeyDownByIntent(m: Keymap, c: Controller)
    requires Distinct(m)
    ensures KeyDown(m, c, m.throttleDown) == c.(upDown := -Speed)
    ensures KeyDown(m, c, m.yawLeft) == c.(yaw := -Speed)
    ensures KeyDown(m, c, m.yawRight) == c.(yaw := Speed)
    ensures KeyDown(m, c, m.pitchUp) == c.(forwardBack := Speed)
    ensures KeyDown(m, c, m.pitchDown) == c.(forwardBack := -Speed)
    ensures KeyDown(m, c, m.rollLeft) == c.(leftRight := -Speed)
    ensures KeyDown(m, c, m.rollRight) == c.(leftRight := Speed)
    ensures KeyDown(m, c, m.takeoff) == c && KeyDown(m, c, m.land) == c && KeyDown(m, c, m.quit) == c
  {
    DistinctPairwise(m);
  }

  /** `keyup_callback`: releasing either key of an axis first sends the
      velocities as they were (when enabled), then zeroes that axis;
      releasing takeoff takes off and enables RC, releasing land lands and
      disables it; any other key does nothing. */
  function KeyUp(m: Keymap, c: Controller, k: Key): (r: Reaction)
    ensures k in {m.throttleUp, m.throttleDown} ==> r == Reaction(c.(upDown := 0), Update(c))
    ensures IsAxisKey(m, k) ==> r.calls == Update(c) && r.controller.sendRc == c.sendRc
    ensures IsAxisKey(m, k) ==> ChangedAxes(c, r.controller) <= 1
    ensures !IsAxisKey(m, k) && k != m.takeoff && k != m.land ==> r == Reaction(c, [])
    ensures r.controller.forwardBack in {c.forwardBack, 0} && r.controller.leftRight in {c.leftRight, 0}
    ensures r.controller.upDown in {c.upDown, 0} && r.controller.yaw in {c.yaw, 0}
  {
    if k == m.throttleUp || k == m.throttleDown then Reaction(c.(upDown := 0), Update(c))
    else if k == m.yawLeft || k == m.yawRight then Reaction(c.(yaw := 0), Update(c))
    else if k == m.pitchUp || k == m.pitchDown then Reaction(c.(forwardBack := 0), Update(c))
    else if k == m.rollLeft || k == m.rollRight then Reaction(c.(leftRight := 0), Update(c))
    else if k == m.takeoff then Reaction(c.(sendRc := true), [TakeOffCall])
    else if k == m.land then Reaction(c.(sendRc := false), [LandCall])
    else Reaction(c, [])
  }

  /** With a distinct keymap, releasing a key of an axis zeroes exactly that
      axis after sending the previous velocities; releasing takeoff calls
      take_off then enables RC; releasing land calls land then disables it;
      releasing quit does nothing. */
  lemma KeyUpByIntent(m: Keymap, c: Controller)
    requires Distinct(m)
    ensures KeyUp(m, c, m.yawLeft) == KeyUp(m, c, m.yawRight) == Reaction(c.(yaw := 0), Update(c))
    ensures KeyUp(m, c, m.pitchUp) == KeyUp(m, c, m.pitchDown) == Reaction(c.(forwardBack := 0), Update(c))
    ensures KeyUp(m, c, m.rollLeft) == KeyUp(m, c, m.rollRight) == Reaction(c.(leftRight := 0), Update(c))
    ensures KeyUp(m, c, m.takeoff) == Reaction(c.(sendRc := true), [TakeOffCall])
    ensures KeyUp(m, c, m.land) == Reaction(c.(sendRc := false), [LandCall])
    ensures KeyUp(m, c, m.quit) == Reaction(c, [])
  {
    DistinctPairwise(m);
  }

  /** The two callbacks the remote-control library dispatches to. */
  datatype Event = Pressed(key: Key) | Released(key: Key)

  function Handle(m: Keymap, c: Controller, e: Event): Reaction {
    match e
    case Pressed(k) => Reaction(KeyDown(m, c, k), [])
    case Released(k) => KeyUp(m, c, k)
  }

  /** Feeds a list of events to the controller, collecting its calls. */
  function Replay(m: Keymap, c: Controller, events: seq<Event>): Reaction
    decreases |events|
  {
    if events == [] then Reaction(c, [])
    else
      var first := Handle(m, c, events[0]);
      var rest := Replay(m, first.controller, events[1..]);
      Reaction(rest.controller, first.calls + rest.calls)
  }

  /** Each velocity is one of the values the callbacks and `run` ever
      assign: 0 or plus/minus the speed, and 20 on the up/down axis. */
  predicate InRange(c: Controller) {
    && c.forwardBack in {-Speed, 0, Speed}
    && c.leftRight in {-Speed, 0, Speed}
    && c.yaw in {-Speed, 0, Speed}
    && c.upDown in {-Speed, 0, Speed, InitialUpDown}
  }

  /** Every event keeps the velocities in range, for any keymap. */
  lemma {:induction false} ReplayStaysInRange(m: Keymap, c: Controller, events: seq<Event>)
    requires InRange(c)
    ensures InRange(Replay(m, c, events).controller)
    decreases |events|
  {
    if events != [] {
      ReplayStaysInRange(m, Handle(m, c, events[0]).controller, events[1..]);
    }
  }

  /** An event concerns the throttle when its key is bound to throttle up or down. */
  predicate TouchesThrottle(m: Keymap, e: Event) {
    e.key == m.throttleUp || e.key == m.throttleDown
  }

  /** Starting from `run`'s state, the up/down velocity still reads 20 exactly
      when no event so far has concerned the throttle: 20 is only ever the
      initial value. */
  lemma {:induction false} TwentyOnlyBeforeThrottle(m: Keymap, c: Controller, events: seq<Event>)
    requires c.upDown == InitialUpDown
    ensures Replay(m, c, events).controller.upDown == InitialUpDown <==>
      forall i :: 0 <= i < |events| ==> !TouchesThrottle(m, events[i])
    decreases |events|
  {
    if events != [] {
      var c1 := Handle(m, c, events[0]).controller;
      if TouchesThrottle(m, events[0]) {
        assert c1.upDown != InitialUpDown;
        ThrottleNeverReturnsToTwenty(m, c1, events[1..]);
      } else {
        assert c1.upDown == c.upDown;
        TwentyOnlyBeforeThrottle(m, c1, events[1..]);
        forall i | 0 <= i < |events|
          ensures !TouchesThrottle(m, events[i]) <==> (i == 0 || !TouchesThrottle(m, events[1..][i - 1]))
        {
        }
      }
    }
  }

  /** Once the up/down velocity has left 20, no event brings it back. */
  lemma {:induction false} ThrottleNeverReturnsToTwenty(m: Keymap, c: Controller, events: seq<Event>)
    requires c.upDown != InitialUpDown
    ensures Replay(m, c, events).controller.upDown != InitialUpDown
    decreases |events|
  {
    if events != [] {
      ThrottleNeverReturnsToTwenty(m, Handle(m, c, events[0]).controller, events[1..]);
    }
  }

  /** Pressing and releasing one axis key, on an axis at rest, restores the
      controller; the release sends the pressed velocity when RC is enabled,
      and the next `update_callback` (on a later axis-key release, say) would
      send the axis at rest. */
  lemma PressReleaseRestores(m: Keymap, c: Controller, k: Key)
    requires Distinct(m) && IsAxisKey(m, k)
    requires c.forwardBack == 0 && c.leftRight == 0 && c.upDown == 0 && c.yaw == 0
    ensures var pressed := KeyDown(m, c, k);
      && KeyUp(m, pressed, k) == Reaction(c, Update(pressed))
      && pressed != c
      && Update(c) == (if c.sendRc then [SendRcCall(Channels(0, 0, 0, 0))] else [])
  {
  }

  /** Pressing yaw-left sets yaw to minus the speed; releasing it sends that
      yaw once more (when enabled) and leaves yaw at zero for the next
      `update_callback`. */
  lemma YawLeftPressRelease(m: Keymap, c: Controller)
    requires Distinct(m) && c.sendRc
    ensures var pressed := KeyDown(m, c, m.yawLeft);
      var released := KeyUp(m, pressed, m.yawLeft);
      && pressed.yaw == -Speed
      && released.calls == [SendRcCall(ChannelsOf(c).(yaw := -Speed))]
      && released.controller.yaw == 0
      && Update(released.controller) == [SendRcCall(ChannelsOf(c).(yaw := 0))]
  {
  }

  /** Releasing the opposite key of an axis zeroes it even while the first
      key is still held: the axis has no memory of which keys are down. */
  lemma OppositeReleaseZeroesAxis(m: Keymap, c: Controller)
    requires Distinct(m)
    ensures var held := KeyDown(m, c, m.throttleUp);
      && held.upDown == Speed
      && KeyUp(m, held, m.throttleDown).controller.upDown == 0
  {
  }

  /** RC control is enabled only by releasing the takeoff key: until then no
      velocities are sent, for any keymap and any events. */
  lemma {:induction false} NoRcBeforeTakeoff(m: Keymap, c: Controller, events: seq<Event>)
    requires !c.sendRc
    requires forall i :: 0 <= i < |events| ==> events[i] != Released(m.takeoff)
    ensures !Replay(m, c, events).controller.sendRc
    ensures forall call :: call in Replay(m, c, events).calls ==> !call.SendRcCall?
    decreases |events|
  {
    if events != [] {
      var first := Handle(m, c, events[0]);
      assert !first.controller.sendRc;
      assert forall call :: call in first.calls ==> !call.SendRcCall?;
      NoRcBeforeTakeoff(m, first.controller, events[1..]);
    }
  }
}

=== FILE: rclib.dfy ===
/** The remote-control event library (controller/rclib.py): it holds a
    keymap and three optional callbacks, and its run loop forwards each batch
    of key events to the key-down and key-up callbacks until the keymap's
    quit key has been pressed. Callbacks are abstract: the loop's effect is
    the list of dispatches it makes. */
module RcLib {
  import opened Wrappers
  import opened Keys

  /** A callable value, identified abstractly. */
  datatype Callback = Callback(id: nat)

  /** A value handed to a `set_event_*` method: callable or not. */
  datatype Arg = Callable(callback: Callback) | NotCallable

  datatype RClib = RClib(
    keymaps: Option<Keymap>,
    onKeyUp: Option<Callback>,
    onKeyDown: Option<Callback>,
    onUpdate: Option<Callback>)

  /** Class defaults: no keymap, no callbacks. */
  const Fresh: RClib := RClib(None, None, None, None)

  /** `keymap(k)`: `None` leaves the keymap as it was, anything else replaces it. */
  function SetKeymap(r: RClib, keymap: Option<Keymap>): (r': RClib)
    ensures keymap.None? ==> r' == r
    ensures keymap.Some? ==> r'.keymaps == keymap && r'.(keymaps := r.keymaps) == r
  {
    if keymap.Some? then r.(keymaps := keymap) else r
  }

  /** What a `set_event_*` method stores: the argument if it is callable,
      otherwise the callback held before. */
  function Store(previous: Option<Callback>, a: Arg): (stored: Option<Callback>)
    ensures a.Callable? ==> stored == Some(a.callback)
    ensures a.NotCallable? ==> stored == previous
  {
    if a.Callable? then Some(a.callback) else previous
  }

  /** `set_event_keyup`. */
  function SetEventKeyUp(r: RClib, a: Arg): (r': RClib)
    ensures r'.onKeyUp == Store(r.onKeyUp, a) && r'.(onKeyUp := r.onKeyUp) == r
  {
    r.(onKeyUp := Store(r.onKeyUp, a))
  }

  /** `set_event_keydown`. */
  function SetEventKeyDown(r: RClib, a: Arg): (r': RClib)
    ensures r'.onKeyDown == Store(r.onKeyDown, a) && r'.(onKeyDown := r.onKeyDown) == r
  {
    r.(onKeyDown := Store(r.onKeyDown, a))
  }

  /** `set_event_update`. */
  function SetEventUpdate(r: RClib, a: Arg): (r': RClib)
    ensures r'.onUpdate == Store(r.onUpdate, a) && r'.(onUpdate := r.onUpdate) == r
  {
    r.(onUpdate := Store(r.onUpdate, a))
  }

  /** The pygame events the loop distinguishes. */
  datatype Event = KeyDownEvent(key: Key) | KeyUpEvent(key: Key) | OtherEvent

  /** Which of the library's callback slots a dispatch went through. */
  datatype Slot = KeyDownSlot | KeyUpSlot | UpdateSlot

  datatype Dispatch = Dispatch(slot: Slot, callback: Callback, event: Event)

  /** A key-down needs the keymap (to compare with its quit key); without
      one the loop fails, as the attribute lookup on `None` would. The
      callbacks already invoked before that point stay invoked, so the
      failure carries the dispatches made up to it. */
  datatype Failure = NoKeymap(dispatched: seq<Dispatch>)

  /** Dispatches of one batch, and whether quit was pressed in it. */
  datatype BatchResult = BatchResult(dispatches: seq<Dispatch>, quit: bool)

  /** One event: a key-down marks quit if it is the quit key and is forwarded
      to the key-down callback in any case; a key-up goes to the key-up
      callback; any other event is ignored. */
  function DispatchEvent(r: RClib, e: Event): (res: Result<BatchResult, Failure>)
    ensures e.KeyDownEvent? && r.keymaps.None? <==> res.Err?
    ensures res.Err? ==> res.error.dispatched == []
    ensures res.Ok? ==> |res.value.dispatches| <= 1
    ensures res.Ok? ==> (res.value.quit <==> e.KeyDownEvent? && e.key == r.keymaps.value.quit)
    ensures res.Ok? && e.KeyDownEvent? ==>
      res.value.dispatches == (if r.onKeyDown.Some? then [Dispatch(KeyDownSlot, r.onKeyDown.value, e)] else [])
    ensures res.Ok? && e.KeyUpEvent? ==>
      res.value.dispatches == (if r.onKeyUp.Some? then [Dispatch(KeyUpSlot, r.onKeyUp.value, e)] else [])
    ensures res.Ok? && e.OtherEvent? ==> res.value.dispatches == []
  {
    match e
    case KeyDownEvent(k) =>
      if r.keymaps.None? then Err(NoKeymap([]))
      else
        var forwarded := if r.onKeyDown.Some? then [Dispatch(KeyDownSlot, r.onKeyDown.value, e)] else [];
        Ok(BatchResult(forwarded, k == r.keymaps.value.quit))
    case KeyUpEvent(_) =>
      Ok(BatchResult(if r.onKeyUp.Some? then [Dispatch(KeyUpSlot, r.onKeyUp.value, e)] else [], false))
    case OtherEvent =>
      Ok(BatchResult([], false))
  }

  /** A whole batch (one `pygame.event.get()`): every event is dispatched,
      even after quit has been seen. Without a keymap the batch fails at its
      first key-down, after the key-ups before it have been forwarded. */
  function DispatchBatch(r: RClib, batch: seq<Event>): (res: Result<BatchResult, Failure>)
    ensures res.Ok? ==> |res.value.dispatches| <= |batch|
    ensures res.Ok? ==> forall d :: d in res.value.dispatches ==> d.slot != UpdateSlot
    ensures res.Err? <==> r.keymaps.None? && exists i :: 0 <= i < |batch| && batch[i].KeyDownEvent?
    ensures res.Err? ==> forall d :: d in res.error.dispatched ==> d.slot == KeyUpSlot
    ensures res.Ok? ==> (res.value.quit <==> r.keymaps.Some? && QuitIn(batch, r.keymaps.value.quit))
    decreases |batch|
  {
    if batch == [] then Ok(BatchResult([], false))
    else
      match DispatchEvent(r, batch[0])
      case Err(f) => Err(f)
      case Ok(first) =>
        match DispatchBatch(r, batch[1..])
        case Err(f) => Err(NoKeymap(first.dispatches + f.dispatched))
        case Ok(rest) => Ok(BatchResult(first.dispatches + rest.dispatches, first.quit || rest.quit))
  }

  /** The batch holds a key-down of the quit key `q`. */
  predicate QuitIn(batch: seq<Event>, q: Key) {
    exists i :: 0 <= i < |batch| && batch[i] == KeyDownEvent(q)
  }

  /** Result of the run loop over the batches it was given: the dispatches
      made, how many batches were consumed, and whether it stopped. */
  datatype RunResult = RunResult(dispatches: seq<Dispatch>, consumed: nat, stopped: bool)

  /** `run`: batches are dispatched one after another; the stop flag is only
      checked between batches. */
  function Run(r: RClib, batches: seq<seq<Event>>): (res: Result<RunResult, Failure>)
    ensures res.Ok? ==> res.value.consumed <= |batches|
    ensures res.Ok? && !res.value.stopped ==> res.value.consumed == |batches|
    ensures res.Ok? ==> forall d :: d in res.value.dispatches ==> d.slot != UpdateSlot
    ensures res.Err? ==> r.keymaps.None?
    ensures res.Err? ==> forall d :: d in res.error.dispatched ==> d.slot != UpdateSlot
    decreases |batches|
  {
    if batches == [] then Ok(RunResult([], 0, false))
    else
      match DispatchBatch(r, batches[0])
      case Err(f) => Err(f)
      case Ok(first) =>
        if first.quit then Ok(RunResult(first.dispatches, 1, true))
        else
          match Run(r, batches[1..])
          case Err(f) => Err(NoKeymap(first.dispatches + f.dispatched))
          case Ok(rest) => Ok(RunResult(first.dispatches + rest.dispatches, 1 + rest.consumed, rest.stopped))
  }

  /** Position of the first batch holding a quit key-down, or the number of
      batches if none does. */
  function FirstQuit(batches: seq<seq<Event>>, q: Key): (k: nat)
    ensures k <= |batches|
    ensures forall j :: 0 <= j < k ==> !QuitIn(batches[j], q)
    ensures k < |batches| ==> QuitIn(batches[k], q)
    decreases |batches|
  {
    if batches == [] || QuitIn(batches[0], q) then 0 else 1 + FirstQuit(batches[1..], q)
  }

  /** The dispatches of the batches one after another, each dispatched on
      its own. */
  function Concat(r: RClib, batches: seq<seq<Event>>): seq<Dispatch>
    requires r.keymaps.Some?
    decreases |batches|
  {
    if batches == [] then [] else DispatchBatch(r, batches[0]).value.dispatches + Concat(r, batches[1..])
  }

  /** How many batches the loop takes in: up to and including the first one
      holding a quit key-down, or all of them. */
  function Consumed(batches: seq<seq<Event>>, q: Key): (n: nat)
    ensures n <= |batches|
  {
    var k := FirstQuit(batches, q);
    if k < |batches| then k + 1 else |batches|
  }

  /** With a keymap, the loop stops iff some batch holds a quit key-down; it
      takes in the batches up to the first such one, and dispatches exactly
      what those batches dispatch one after another. */
  lemma {:induction false} RunStopsAtFirstQuit(r: RClib, batches: seq<seq<Event>>)
    requires r.keymaps.Some?
    ensures var q := r.keymaps.value.quit;
      && Run(r, batches).Ok?
      && (Run(r, batches).value.stopped <==> exists j :: 0 <= j < |batches| && QuitIn(batches[j], q))
      && Run(r, batches).value.consumed == Consumed(batches, q)
      && Run(r, batches).value.dispatches == Concat(r, batches[..Consumed(batches, q)])
    decreases |batches|
  {
    var q := r.keymaps.value.quit;
    if batches != [] {
      var first := DispatchBatch(r, batches[0]).value;
      if first.quit {
        ConcatOne(r, batches[..1]);
      } else {
        RunStopsAtFirstQuit(r, batches[1..]);
        LaterQuit(batches, q);
        var c := Consumed(batches[1..], q);
        assert Consumed(batches, q) == 1 + c;
        ConcatCons(r, batches, c);
      }
    }
  }

  lemma ConcatOne(r: RClib, batches: seq<seq<Event>>)
    requires r.keymaps.Some? && |batches| == 1
    ensures Concat(r, batches) == DispatchBatch(r, batches[0]).value.dispatches
  {
    assert batches[1..] == [];
  }

  /** Taking in the first batch and `c` more. */
  lemma ConcatCons(r: RClib, batches: seq<seq<Event>>, c: nat)
    requires r.keymaps.Some? && c < |batches|
    ensures Concat(r, batches[..c + 1])
         == DispatchBatch(r, batches[0]).value.dispatches + Concat(r, batches[1..][..c])
  {
    assert batches[..c + 1][0] == batches[0];
    assert batches[..c + 1][1..] == batches[1..][..c];
  }

  /** When the first batch holds no quit key-down, the search moves on. */
  lemma LaterQuit(batches: seq<seq<Event>>, q: Key)
    requires batches != [] && !QuitIn(batches[0], q)
    ensures FirstQuit(batches, q) == 1 + FirstQuit(batches[1..], q)
    ensures (exists j :: 0 <= j < |batches| && QuitIn(batches[j], q))
        <==> (exists j :: 0 <= j < |batches[1..]| && QuitIn(batches[1..][j], q))
  {
    if exists j :: 0 <= j < |batches| && QuitIn(batches[j], q) {
      var j :| 0 <= j < |batches| && QuitIn(batches[j], q);
      assert QuitIn(batches[1..][j - 1], q);
    }
  }

  /** A key event of a batch is one that reaches a callback when both key
      callbacks are set. */
  predicate IsKeyEvent(e: Event) {
    e.KeyDownEvent? || e.KeyUpEvent?
  }

  function KeyEvents(batch: seq<Event>): (keys: seq<Event>)
    ensures forall e :: e in keys <==> e in batch && IsKeyEvent(e)
    decreases |batch|
  {
    if batch == [] then []
    else (if IsKeyEvent(batch[0]) then [batch[0]] else []) + KeyEvents(batch[1..])
  }

  /** Position of the first key-down of a batch, or its length if it has none. */
  function FirstKeyDown(batch: seq<Event>): (k: nat)
    ensures k <= |batch|
    ensures forall i :: 0 <= i < k ==> !batch[i].KeyDownEvent?
    ensures k < |batch| ==> batch[k].KeyDownEvent?
    decreases |batch|
  {
    if batch == [] || batch[0].KeyDownEvent? then 0 else 1 + FirstKeyDown(batch[1..])
  }

  /** Without a keymap, a batch with a key-down fails there, and the failure
      records exactly what the events before it dispatched; a batch with no
      key-down goes through. */
  lemma {:induction false} FailureKeepsEarlierDispatches(r: RClib, batch: seq<Event>)
    requires r.keymaps.None?
    ensures var k := FirstKeyDown(batch);
      && DispatchBatch(r, batch[..k]).Ok?
      && (k < |batch| ==> DispatchBatch(r, batch) == Err(NoKeymap(DispatchBatch(r, batch[..k]).value.dispatches)))
      && (k == |batch| ==> DispatchBatch(r, batch).Ok?)
    decreases |batch|
  {
    if batch != [] && !batch[0].KeyDownEvent? {
      FailureKeepsEarlierDispatches(r, batch[1..]);
      var k := FirstKeyDown(batch);
      assert batch[..k][1..] == batch[1..][..k - 1];
      assert batch[..k][0] == batch[0];
    }
  }

  /** A failure in a later batch keeps the dispatches of the earlier batches. */
  lemma RunFailureKeepsEarlierBatches(r: RClib, batch: seq<Event>, later: seq<seq<Event>>)
    requires DispatchBatch(r, batch).Ok? && !DispatchBatch(r, batch).value.quit
    requires Run(r, later).Err?
    ensures Run(r, [batch] + later)
         == Err(NoKeymap(DispatchBatch(r, batch).value.dispatches + Run(r, later).error.dispatched))
  {
    assert ([batch] + later)[0] == batch;
    assert ([batch] + later)[1..] == later;
  }

  /** The dispatches `ds` forward exactly the events `es`, in order. */
  predicate Forwards(ds: seq<Dispatch>, es: seq<Event>) {
    |ds| == |es| && forall i :: 0 <= i < |ds| ==> ds[i].event == es[i]
  }

  lemma ForwardsAppend(ds1: seq<Dispatch>, es1: seq<Event>, ds2: seq<Dispatch>, es2: seq<Event>)
    requires Forwards(ds1, es1) && Forwards(ds2, es2)
    ensures Forwards(ds1 + ds2, es1 + es2)
  {
  }

  /** With both key callbacks set, one event is forwarded iff it is a key event. */
  lemma EventForwarded(r: RClib, e: Event)
    requires r.keymaps.Some? && r.onKeyDown.Some? && r.onKeyUp.Some?
    ensures DispatchEvent(r, e).Ok?
    ensures Forwards(DispatchEvent(r, e).value.dispatches, if IsKeyEvent(e) then [e] else [])
  {
  }

  /** With a keymap and both key callbacks set, a batch forwards exactly its
      key events, in order, quit included. */
  lemma {:induction false} BatchForwardsEveryKeyEvent(r: RClib, batch: seq<Event>)
    requires r.keymaps.Some? && r.onKeyDown.Some? && r.onKeyUp.Some?
    ensures DispatchBatch(r, batch).Ok?
    ensures Forwards(DispatchBatch(r, batch).value.dispatches, KeyEvents(batch))
    decreases |batch|
  {
    if batch != [] {
      BatchForwardsEveryKeyEvent(r, batch[1..]);
      EventForwarded(r, batch[0]);
      var first := DispatchEvent(r, batch[0]).value;
      var rest := DispatchBatch(r, batch[1..]).value;
      var head := if IsKeyEvent(batch[0]) then [batch[0]] else [];
      ForwardsAppend(first.dispatches, head, rest.dispatches, KeyEvents(batch[1..]));
      assert DispatchBatch(r, batch).value.dispatches == first.dispatches + rest.dispatches;
    }
  }

  /** Quit in a batch stops the loop after that batch, having dispatched all
      of it; the batches after it are never looked at. */
  lemma QuitStopsAfterBatch(r: RClib, batch: seq<Event>, later: seq<seq<Event>>)
    requires r.keymaps.Some?
    requires DispatchBatch(r, batch).Ok? && DispatchBatch(r, batch).value.quit
    ensures Run(r, [batch] + later) == Ok(RunResult(DispatchBatch(r, batch).value.dispatches, 1, true))
  {
    assert ([batch] + later)[0] == batch;
  }

  /** A key-down of the quit key is still forwarded to the key-down callback. */
  lemma QuitKeyStillForwarded(r: RClib, c: Callback)
    requires r.keymaps.Some? && r.onKeyDown == Some(c)
    ensures var e := KeyDownEvent(r.keymaps.value.quit);
      DispatchEvent(r, e) == Ok(BatchResult([Dispatch(KeyDownSlot, c, e)], true))
  {
  }

  /** Setting up the library as the stick-mode controller does it: keymap,
      key-up, key-down and update callbacks. The update callback is stored,
      yet no run ever dispatches through it. */
  lemma UpdateCallbackNeverRuns(m: Keymap, up: Callback, down: Callback, tick: Callback, batches: seq<seq<Event>>)
    ensures var r := SetEventUpdate(SetEventKeyDown(SetEventKeyUp(SetKeymap(Fresh, Some(m)), Callable(up)), Callable(down)), Callable(tick));
      && r == RClib(Some(m), Some(up), Some(down), Some(tick))
      && Run(r, batches).Ok?
      && forall d :: d in Run(r, batches).value.dispatches ==> d.slot != UpdateSlot
  {
    var r := RClib(Some(m), Some(up), Some(down), Some(tick));
    RunNeverFailsWithKeymap(r, batches);
  }

  /** With a keymap loaded the loop never fails. */
  lemma {:induction false} RunNeverFailsWithKeymap(r: RClib, batches: seq<seq<Event>>)
    requires r.keymaps.Some?
    ensures Run(r, batches).Ok?
    decreases |batches|
  {
    if batches != [] {
      BatchNeverFailsWithKeymap(r, batches[0]);
      RunNeverFailsWithKeymap(r, batches[1..]);
    }
  }

  lemma {:induction false} BatchNeverFailsWithKeymap(r: RClib, batch: seq<Event>)
    requires r.keymaps.Some?
    ensures DispatchBatch(r, batch).Ok?
    decreases |batch|
  {
    if batch != [] {
      BatchNeverFailsWithKeymap(r, batch[1..]);
    }
  }
}

=== FILE: search_track.dfy ===
/** The search-and-track loop (test/drone-search-and-track.py), one loop
    iteration per video frame: a low-battery exit, a yaw sweep of 1-degree
    rotations while flying and nothing has been seen, takeoff/land on key
    release, and a latch that records the first frame with a detection.
    Detection itself is abstracted to the number of detections in a frame;
    the drone is abstract, its effect being the list of calls made on it. */
module SearchTrack {
  import opened Keys

  /** Rotations per sweep before the sweep turns around. */
  const ScanLimit: int := 160
  /** Degrees per sweep step. */
  const StepDegrees: int := 1
  /** Altitude passed to takeoff. */
  const TakeoffAltitude: int := 20
  const KeyTakeoff: Key := T
  const KeyLanding: Key := L

  datatype Yaw = YawLeft | YawRight

  datatype Scanner = Scanner(flying: bool, detected: bool, idx: int, direction: Yaw)

  /** Calls on the lib drone object. */
  datatype Call = RotateLeft(degrees: int) | RotateRight(degrees: int) | TakeOff(altitude: int) | Land | Bye

  predicate IsRotation(c: Call) {
    c.RotateLeft? || c.RotateRight?
  }

  /** What one iteration sees: whether the base class reports low battery,
      the keys released since the last frame, whether the frame reader has
      stopped, and how many objects the frame holds. */
  datatype Frame = Frame(lowBattery: bool, keyUps: seq<Key>, streamStopped: bool, detections: nat)

  /** Class defaults and `idx = 0`. */
  function Initial(): (s: Scanner)
    ensures !s.flying && !s.detected && s.idx == 0 && s.direction == YawLeft
  {
    Scanner(false, false, 0, YawLeft)
  }

  /** The sweep step: while flying with nothing detected, rotate 1 degree in
      the current direction and advance idx; at 160, reset idx and turn a
      left sweep into a right one (a right sweep stays right). */
  function Scan(s: Scanner): (r: (Scanner, seq<Call>))
    ensures s.flying && !s.detected && s.idx < ScanLimit ==>
      r.0 == s.(idx := s.idx + 1)
      && r.1 == [if s.direction == YawLeft then RotateLeft(StepDegrees) else RotateRight(StepDegrees)]
    ensures s.flying && !s.detected && s.idx >= ScanLimit ==>
      r == (s.(idx := 0, direction := YawRight), [])
    ensures !s.flying || s.detected ==> r == (s, [])
  {
    if s.flying && !s.detected then
      if s.idx < ScanLimit then
        (s.(idx := s.idx + 1), [if s.direction == YawLeft then RotateLeft(StepDegrees) else RotateRight(StepDegrees)])
      else
        (s.(idx := 0, direction := YawRight), [])
    else (s, [])
  }

  /** The keys of a batch before its first landing key. */
  function BeforeLanding(keys: seq<Key>): (pre: seq<Key>)
    ensures pre <= keys && KeyLanding !in pre
    ensures KeyLanding in keys ==> |pre| < |keys| && keys[|pre|] == KeyLanding
    ensures KeyLanding !in keys ==> pre == keys
    decreases |keys|
  {
    if keys == [] || keys[0] == KeyLanding then [] else [keys[0]] + BeforeLanding(keys[1..])
  }

  /** How often `k` occurs in `keys`. */
  function KeyCount(keys: seq<Key>, k: Key): (n: nat)
    ensures n <= |keys|
    ensures n == 0 <==> k !in keys
    decreases |keys|
  {
    if keys == [] then 0 else (if keys[0] == k then 1 else 0) + KeyCount(keys[1..], k)
  }

  /** `n` calls of takeoff(20). */
  function Takeoffs(n: nat): (calls: seq<Call>)
    ensures |calls| == n && forall i :: 0 <= i < n ==> calls[i] == TakeOff(TakeoffAltitude)
  {
    if n == 0 then [] else [TakeOff(TakeoffAltitude)] + Takeoffs(n - 1)
  }

  /** The key-release handling of one iteration: takeoff raises the flying
      flag before calling takeoff(20); landing lowers it, calls land and
      drops the rest of the batch; other keys are ignored. */
  function HandleKeys(s: Scanner, keys: seq<Key>): (r: (Scanner, seq<Call>))
    ensures r.0.detected == s.detected && r.0.idx == s.idx && r.0.direction == s.direction
    ensures keys != [] && keys[0] == KeyLanding ==> r == (s.(flying := false), [Land])
    ensures keys != [] && keys[0] == KeyTakeoff ==>
      r.1 != [] && r.1[0] == TakeOff(TakeoffAltitude) && (r.0.flying || KeyLanding in keys)
    ensures s.flying && KeyLanding !in keys ==> r.0.flying
    ensures KeyTakeoff !in keys && KeyLanding !in keys ==> r == (s, [])
    ensures forall c :: c in r.1 ==> !IsRotation(c)
    decreases |keys|
  {
    if keys == [] then (s, [])
    else if keys[0] == KeyTakeoff then
      var rest := HandleKeys(s.(flying := true), keys[1..]);
      (rest.0, [TakeOff(TakeoffAltitude)] + rest.1)
    else if keys[0] == KeyLanding then
      (s.(flying := false), [Land])
    else
      HandleKeys(s, keys[1..])
  }

  /** A key other than landing at the head of the batch counts towards the
      takeoffs before the first landing, and does not decide whether there
      is a landing key. */
  lemma HeadBeforeLanding(keys: seq<Key>)
    requires keys != [] && keys[0] != KeyLanding
    ensures KeyCount(BeforeLanding(keys), KeyTakeoff)
         == (if keys[0] == KeyTakeoff then 1 else 0) + KeyCount(BeforeLanding(keys[1..]), KeyTakeoff)
    ensures KeyLanding in keys <==> KeyLanding in keys[1..]
  {
    HeadCount(keys[0], BeforeLanding(keys[1..]));
    HeadMembership(keys);
  }

  lemma HeadCount(k: Key, rest: seq<Key>)
    ensures KeyCount([k] + rest, KeyTakeoff) == (if k == KeyTakeoff then 1 else 0) + KeyCount(rest, KeyTakeoff)
  {
    assert ([k] + rest)[1..] == rest;
  }

  lemma HeadMembership(keys: seq<Key>)
    requires keys != [] && keys[0] != KeyLanding
    ensures KeyLanding in keys <==> KeyLanding in keys[1..]
  {
    assert keys == [keys[0]] + keys[1..];
  }

  /** The calls of a batch are one takeoff per takeoff key before the first
      landing key, then land if there is one. */
  predicate CallsAsCounted(s: Scanner, keys: seq<Key>) {
    HandleKeys(s, keys).1 == Takeoffs(KeyCount(BeforeLanding(keys), KeyTakeoff))
                             + (if KeyLanding in keys then [Land] else [])
  }

  lemma TakeoffHeadStep(s: Scanner, keys: seq<Key>)
    requires keys != [] && keys[0] == KeyTakeoff
    requires CallsAsCounted(s.(flying := true), keys[1..])
    ensures CallsAsCounted(s, keys)
  {
    HeadBeforeLanding(keys);
    var n := KeyCount(BeforeLanding(keys[1..]), KeyTakeoff);
    var tail: seq<Call> := if KeyLanding in keys then [Land] else [];
    ConsTakeoff(n, tail);
    assert HandleKeys(s, keys).1 == [TakeOff(TakeoffAltitude)] + HandleKeys(s.(flying := true), keys[1..]).1;
  }

  lemma ConsTakeoff(n: nat, tail: seq<Call>)
    ensures [TakeOff(TakeoffAltitude)] + (Takeoffs(n) + tail) == Takeoffs(n + 1) + tail
  {
    assert Takeoffs(n + 1) == [TakeOff(TakeoffAltitude)] + Takeoffs(n);
  }

  lemma OtherHeadStep(s: Scanner, keys: seq<Key>)
    requires keys != [] && keys[0] != KeyTakeoff && keys[0] != KeyLanding
    requires CallsAsCounted(s, keys[1..])
    ensures CallsAsCounted(s, keys)
  {
    HeadBeforeLanding(keys);
    assert HandleKeys(s, keys) == HandleKeys(s, keys[1..]);
  }

  /** Wherever the keys sit in the batch, the calls are one takeoff per
      takeoff key before the first landing key, then land if there is one. */
  lemma {:induction false} KeysAnywhereCalls(s: Scanner, keys: seq<Key>)
    ensures HandleKeys(s, keys).1 == Takeoffs(KeyCount(BeforeLanding(keys), KeyTakeoff))
                                     + (if KeyLanding in keys then [Land] else [])
    decreases |keys|
  {
    if keys == [] {
    } else if keys[0] == KeyLanding {
      assert BeforeLanding(keys) == [];
    } else if keys[0] == KeyTakeoff {
      KeysAnywhereCalls(s.(flying := true), keys[1..]);
      TakeoffHeadStep(s, keys);
    } else {
      KeysAnywhereCalls(s, keys[1..]);
      OtherHeadStep(s, keys);
    }
  }

  /** A landing key anywhere in the batch leaves the scanner grounded. */
  lemma {:induction false} LandingAnywhereGrounds(s: Scanner, keys: seq<Key>)
    requires KeyLanding in keys
    ensures HandleKeys(s, keys).0 == s.(flying := false)
    decreases |keys|
  {
    if keys[0] != KeyLanding {
      assert KeyLanding in keys[1..];
      var s1 := if keys[0] == KeyTakeoff then s.(flying := true) else s;
      LandingAnywhereGrounds(s1, keys[1..]);
    }
  }

  /** Without a landing key the scanner ends flying iff it was flying or a
      takeoff key was released, wherever in the batch. */
  lemma {:induction false} TakeoffAnywhereFlies(s: Scanner, keys: seq<Key>)
    requires KeyLanding !in keys
    ensures HandleKeys(s, keys).0.flying <==> s.flying || KeyTakeoff in keys
    decreases |keys|
  {
    if keys != [] {
      assert KeyLanding !in keys[1..];
      assert KeyTakeoff in keys <==> keys[0] == KeyTakeoff || KeyTakeoff in keys[1..];
      var s1 := if keys[0] == KeyTakeoff then s.(flying := true) else s;
      TakeoffAnywhereFlies(s1, keys[1..]);
    }
  }

  /** The detection latch: set by the first frame with a detection, never cleared. */
  function Latch(s: Scanner, detections: nat): (r: Scanner)
    ensures r.detected <==> s.detected || detections != 0
    ensures r.(detected := s.detected) == s
  {
    if !s.detected && detections != 0 then s.(detected := true) else s
  }

  /** Where an iteration or a run ended: the scanner, the calls made, and
      whether the loop was left. */
  datatype Outcome = Outcome(scanner: Scanner, calls: seq<Call>, exited: bool)

  /** One loop iteration. Low battery leaves before anything else; a stopped
      frame reader leaves after the sweep and the keys, before detection. */
  function Iterate(s: Scanner, f: Frame): (r: Outcome)
    ensures f.lowBattery ==> r == Outcome(s, [], true)
    ensures !f.lowBattery ==> (r.exited <==> f.streamStopped)
    ensures !s.flying && KeyTakeoff !in f.keyUps ==> forall c :: c in r.calls ==> !IsRotation(c)
    ensures !f.lowBattery ==> r.calls == Scan(s).1 + HandleKeys(Scan(s).0, f.keyUps).1
    ensures !f.lowBattery && f.streamStopped ==> r.scanner == HandleKeys(Scan(s).0, f.keyUps).0
    ensures !f.lowBattery && !f.streamStopped ==>
      r.scanner == Latch(HandleKeys(Scan(s).0, f.keyUps).0, f.detections)
  {
    if f.lowBattery then Outcome(s, [], true)
    else
      var (s1, scanCalls) := Scan(s);
      var (s2, keyCalls) := HandleKeys(s1, f.keyUps);
      if f.streamStopped then Outcome(s2, scanCalls + keyCalls, true)
      else Outcome(Latch(s2, f.detections), scanCalls + keyCalls, false)
  }

  /** The loop over a sequence of frames; leaving it calls `bye`. */
  function Run(s: Scanner, frames: seq<Frame>): (r: Outcome)
    ensures r.exited ==> r.calls != [] && r.calls[|r.calls| - 1] == Bye
    decreases |frames|
  {
    if frames == [] then Outcome(s, [], false)
    else
      var step := Iterate(s, frames[0]);
      if step.exited then Outcome(step.scanner, step.calls + [Bye], true)
      else
        var rest := Run(step.scanner, frames[1..]);
        Outcome(rest.scanner, step.calls + rest.calls, rest.exited)
  }

  /** A frame in which nothing happens: battery fine, no key released, the
      reader still running and nothing in view. */
  predicate Quiet(f: Frame) {
    !f.lowBattery && f.keyUps == [] && !f.streamStopped && f.detections == 0
  }

  /** The rotation one sweep step issues in direction `d`. */
  function SweepCall(d: Yaw): (c: Call)
    ensures IsRotation(c) && (c.RotateLeft? <==> d == YawLeft)
    ensures c.RotateLeft? ==> c.degrees == StepDegrees
    ensures c.RotateRight? ==> c.degrees == StepDegrees
  {
    if d == YawLeft then RotateLeft(StepDegrees) else RotateRight(StepDegrees)
  }

  /** `n` copies of call `c`. */
  function Repeat(c: Call, n: nat): (calls: seq<Call>)
    ensures |calls| == n && forall i :: 0 <= i < n ==> calls[i] == c
  {
    if n == 0 then [] else [c] + Repeat(c, n - 1)
  }

  /** A quiet frame while flying, with nothing detected and the sweep not
      finished, rotates 1 degree in the sweep direction and advances idx. */
  lemma QuietFrameRotatesOnce(s: Scanner, f: Frame)
    requires s.flying && !s.detected && s.idx < ScanLimit && Quiet(f)
    ensures Iterate(s, f) == Outcome(s.(idx := s.idx + 1), [SweepCall(s.direction)], false)
  {
  }

  /** A flying scanner that sees nothing sweeps one step per quiet frame, in
      its direction, until the sweep reaches 160. */
  lemma {:induction false} QuietFramesSweep(s: Scanner, frames: seq<Frame>)
    requires s.flying && !s.detected && s.idx + |frames| <= ScanLimit
    requires forall i :: 0 <= i < |frames| ==> Quiet(frames[i])
    ensures Run(s, frames) == Outcome(s.(idx := s.idx + |frames|), Repeat(SweepCall(s.direction), |frames|), false)
    decreases |frames|
  {
    if frames != [] {
      QuietFrameRotatesOnce(s, frames[0]);
      var s1 := s.(idx := s.idx + 1);
      forall i | 0 <= i < |frames[1..]|
        ensures Quiet(frames[1..][i])
      {
        assert frames[1..][i] == frames[i + 1];
      }
      QuietFramesSweep(s1, frames[1..]);
    }
  }

  /** The sweep index stays within [0, 160]. */
  predicate IndexInRange(s: Scanner) {
    0 <= s.idx <= ScanLimit
  }

  /** Every run keeps idx in [0, 160], and a right sweep never turns back left. */
  lemma {:induction false} RunKeepsIndexAndDirection(s: Scanner, frames: seq<Frame>)
    requires IndexInRange(s)
    ensures IndexInRange(Run(s, frames).scanner)
    ensures s.direction == YawRight ==> Run(s, frames).scanner.direction == YawRight
    decreases |frames|
  {
    if frames != [] {
      var step := Iterate(s, frames[0]);
      assert IndexInRange(step.scanner);
      assert s.direction == YawRight ==> step.scanner.direction == YawRight;
      if !step.exited {
        RunKeepsIndexAndDirection(step.scanner, frames[1..]);
      }
    }
  }

  /** Once something has been detected the latch stays set and the sweep is
      over: no further rotation is ever issued. */
  lemma {:induction false} DetectionLatches(s: Scanner, frames: seq<Frame>)
    requires s.detected
    ensures Run(s, frames).scanner.detected
    ensures forall c :: c in Run(s, frames).calls ==> !IsRotation(c)
    decreases |frames|
  {
    if frames != [] {
      var step := Iterate(s, frames[0]);
      if !step.exited {
        DetectionLatches(step.scanner, frames[1..]);
      }
    }
  }

  /** A frame with a detection sets the latch unless the loop is left first. */
  lemma DetectionSetsLatch(s: Scanner, f: Frame)
    requires f.detections != 0 && !f.lowBattery && !f.streamStopped
    ensures Iterate(s, f).scanner.detected && !Iterate(s, f).exited
  {
  }

  /** On the ground, and with no takeoff key pressed, no rotation is issued. */
  lemma {:induction false} GroundedNeverRotates(s: Scanner, frames: seq<Frame>)
    requires !s.flying
    requires forall i :: 0 <= i < |frames| ==> KeyTakeoff !in frames[i].keyUps
    ensures forall c :: c in Run(s, frames).calls ==> !IsRotation(c)
    ensures !Run(s, frames).scanner.flying
    decreases |frames|
  {
    if frames != [] {
      var step := Iterate(s, frames[0]);
      assert !step.scanner.flying by {
        if !frames[0].lowBattery {
          var (s1, _) := Scan(s);
          assert s1 == s;
          NoTakeoffStaysGrounded(s1, frames[0].keyUps);
        }
      }
      if !step.exited {
        GroundedNeverRotates(step.scanner, frames[1..]);
      }
    }
  }

  /** Keys without takeoff never raise the flying flag. */
  lemma {:induction false} NoTakeoffStaysGrounded(s: Scanner, keys: seq<Key>)
    requires !s.flying && KeyTakeoff !in keys
    ensures !HandleKeys(s, keys).0.flying
    decreases |keys|
  {
    if keys != [] && keys[0] != KeyLanding {
      NoTakeoffStaysGrounded(s, keys[1..]);
    }
  }

  /** Low battery at the top of an iteration leaves the loop before any
      sweep: the only call of that frame is `bye`. */
  lemma LowBatteryExits(s: Scanner, f: Frame, rest: seq<Frame>)
    requires f.lowBattery
    ensures Run(s, [f] + rest) == Outcome(s, [Bye], true)
  {
    assert ([f] + rest)[0] == f;
  }

  /** Releasing takeoff marks the scanner flying before calling takeoff(20);
      releasing landing marks it grounded and calls land. */
  lemma TakeoffAndLandingKeys(s: Scanner)
    ensures HandleKeys(s, [KeyTakeoff]) == (s.(flying := true), [TakeOff(TakeoffAltitude)])
    ensures HandleKeys(s, [KeyLanding]) == (s.(flying := false), [Land])
  {
    assert [KeyTakeoff][1..] == [];
    assert HandleKeys(s.(flying := true), []) == (s.(flying := true), []);
    assert [TakeOff(TakeoffAltitude)] + [] == [TakeOff(TakeoffAltitude)];
  }
}

=== FILE: stick_modes.dfy ===
/** The three stick modes of the controller library: the same eleven keys,
    laid out differently across the four axes. */
module StickModes {
  import opened Keys

  /** Stick mode 1: throttle on the up/down arrows, yaw on a/d, pitch on w/s,
      roll on the left/right arrows. */
  function Mode1(): (m: Keymap)
    ensures Distinct(m) && BoundKeys(m) == StandardKeys
    ensures m.throttleUp == Up && m.throttleDown == Down
    ensures m.yawLeft == A && m.yawRight == D
    ensures m.pitchDown == W && m.pitchUp == S
    ensures m.rollLeft == LeftArrow && m.rollRight == RightArrow
    ensures m.takeoff == T && m.land == L && m.quit == Q
  {
    Keymap(Up, Down, A, D, W, S, LeftArrow, RightArrow, T, L, Q)
  }

  /** Stick mode 2: throttle on w/s, yaw on a/d, pitch on the up/down arrows,
      roll on the left/right arrows. */
  function Mode2(): (m: Keymap)
    ensures Distinct(m) && BoundKeys(m) == StandardKeys
    ensures m.throttleUp == W && m.throttleDown == S
    ensures m.yawLeft == A && m.yawRight == D
    ensures m.pitchDown == Up && m.pitchUp == Down
    ensures m.rollLeft == LeftArrow && m.rollRight == RightArrow
    ensures m.takeoff == T && m.land == L && m.quit == Q
  {
    Keymap(W, S, A, D, Up, Down, LeftArrow, RightArrow, T, L, Q)
  }

  /** Stick mode 3: throttle on the up/down arrows, yaw on the left/right
      arrows, pitch on w/s, roll on a/d. */
  function Mode3(): (m: Keymap)
    ensures Distinct(m) && BoundKeys(m) == StandardKeys
    ensures m.throttleUp == Up && m.throttleDown == Down
    ensures m.yawLeft == LeftArrow && m.yawRight == RightArrow
    ensures m.pitchDown == W && m.pitchUp == S
    ensures m.rollLeft == A && m.rollRight == D
    ensures m.takeoff == T && m.land == L && m.quit == Q
  {
    Keymap(Up, Down, LeftArrow, RightArrow, W, S, A, D, T, L, Q)
  }

  /** All three modes share the takeoff, land and quit keys and bind the same
      key set, yet no two of them are the same layout. */
  lemma ModesShareKeysButDiffer()
    ensures BoundKeys(Mode1()) == BoundKeys(Mode2()) == BoundKeys(Mode3())
    ensures Mode1() != Mode2() && Mode2() != Mode3() && Mode1() != Mode3()
  {
  }
}

=== FILE: tello_drone.dfy ===
/** The standalone Tello wrapper (drone/ryze_tello.py). Its gate is the
    transport's own `is_flying` flag, which the transport keeps and this
    wrapper only reads: no wrapper operation writes it, and a run takes,
    for each call, the value the transport reports at that moment. */
module TelloDrone {
  import opened Transport

  /** The transport: its own flying flag and the commands issued on it. */
  datatype Link = Link(flying: bool, trace: seq<Command>)

  /** The wrapper's attributes: four velocities, the RC enable flag, and the link. */
  datatype Drone = Drone(
    forBack: int,
    leftRight: int,
    upDown: int,
    yaw: int,
    sendRcControl: bool,
    link: Link)

  /** Speed the constructor presets on the transport. */
  const PresetSpeed: int := 10

  /** Construction on a fresh transport (which reports not flying): all
      velocities zero, RC disabled, and connect, set_speed(10), streamoff
      issued in that order. */
  function Create(): (d: Drone)
    ensures d.forBack == 0 && d.leftRight == 0 && d.upDown == 0 && d.yaw == 0
    ensures !d.sendRcControl && !d.link.flying
    ensures d.link.trace == [Connect, SetSpeed(10), StreamOff]
  {
    Drone(0, 0, 0, 0, false, Link(false, [Connect, SetSpeed(PresetSpeed), StreamOff]))
  }

  /** Appends commands to the link's trace; nothing else changes. */
  function Issue(d: Drone, cmds: seq<Command>): (r: Drone)
    ensures r.link.trace == d.link.trace + cmds
    ensures r.(link := d.link) == d && r.link.flying == d.link.flying
  {
    d.(link := d.link.(trace := d.link.trace + cmds))
  }

  /** What an operation issued: the suffix its result added to the trace. */
  function Issued(before: Drone, after: Drone): seq<Command>
    requires |before.link.trace| <= |after.link.trace|
  {
    after.link.trace[|before.link.trace|..]
  }

  /** `kill`: emergency, unconditionally. */
  function Kill(d: Drone): (r: Drone)
    ensures r.link.trace == d.link.trace + [Emergency]
    ensures r.(link := d.link) == d && r.link.flying == d.link.flying
  {
    Issue(d, [Emergency])
  }

  /** `bye`: end the link only while the transport reports flying. */
  function Bye(d: Drone): (r: Drone)
    ensures r.link.flying == d.link.flying
    ensures d.link.flying ==> r == Issue(d, [End])
    ensures !d.link.flying ==> r == d
  {
    if d.link.flying then Issue(d, [End]) else d
  }

  /** `restart`: reboot, unconditionally. */
  function Restart(d: Drone): (r: Drone)
    ensures r.link.trace == d.link.trace + [Reboot]
    ensures r.(link := d.link) == d && r.link.flying == d.link.flying
  {
    Issue(d, [Reboot])
  }

  /** `speed`: set_speed, unconditionally. */
  function Speed(d: Drone, speed: int): (r: Drone)
    ensures r.link.trace == d.link.trace + [SetSpeed(speed)]
    ensures r.(link := d.link) == d && r.link.flying == d.link.flying
  {
    Issue(d, [SetSpeed(speed)])
  }

  /** `take_off(height)`: take off and climb `height` cm, only while the
      transport reports not flying (the 2 s pause between is not modelled). */
  function TakeOff(d: Drone, height: int): (r: Drone)
    ensures !d.link.flying ==> r == Issue(d, [Takeoff, MoveUp(height)])
    ensures d.link.flying ==> r == d
  {
    if !d.link.flying then Issue(d, [Takeoff, MoveUp(height)]) else d
  }

  /** `land`: land, only while the transport reports flying. */
  function Land(d: Drone): (r: Drone)
    ensures d.link.flying ==> r == Issue(d, [Command.Land])
    ensures !d.link.flying ==> r == d
  {
    if d.link.flying then Issue(d, [Command.Land]) else d
  }

  /** The four translations of the wrapper. */
  datatype Translation = MoveUpBy | MoveDownBy | MoveLeftBy | MoveRightBy

  function TranslationCommand(t: Translation, amount: int): Command {
    match t
    case MoveUpBy => MoveUp(amount)
    case MoveDownBy => MoveDown(amount)
    case MoveLeftBy => MoveLeft(amount)
    case MoveRightBy => MoveRight(amount)
  }

  /** `up`, `down`, `left`, `right`: the one move command, only while the
      transport reports flying. */
  function Translate(d: Drone, t: Translation, amount: int): (r: Drone)
    ensures d.link.flying ==> r == Issue(d, [TranslationCommand(t, amount)])
    ensures !d.link.flying ==> r == d
  {
    if d.link.flying then Issue(d, [TranslationCommand(t, amount)]) else d
  }

  /** `rotate(direction, x)`: "cw" rotates clockwise, "ccw" counter-clockwise,
      only while flying; any other direction string issues nothing. */
  function Rotate(d: Drone, direction: string, x: int): (r: Drone)
    ensures d.link.flying && direction == "cw" ==> r == Issue(d, [RotateClockwise(x)])
    ensures d.link.flying && direction == "ccw" ==> r == Issue(d, [RotateCounterClockwise(x)])
    ensures !d.link.flying || direction !in {"cw", "ccw"} ==> r == d
  {
    if d.link.flying then
      var d1 := if direction == "cw" then Issue(d, [RotateClockwise(x)]) else d;
      if direction == "ccw" then Issue(d1, [RotateCounterClockwise(x)]) else d1
    else d
  }

  /** `video_off`: streamoff, unconditionally. */
  function VideoOff(d: Drone): (r: Drone)
    ensures r.link.trace == d.link.trace + [StreamOff]
    ensures r.(link := d.link) == d && r.link.flying == d.link.flying
  {
    Issue(d, [StreamOff])
  }

  /** `video_on`: streamon, unconditionally. */
  function VideoOn(d: Drone): (r: Drone)
    ensures r.link.trace == d.link.trace + [StreamOn]
    ensures r.(link := d.link) == d && r.link.flying == d.link.flying
  {
    Issue(d, [StreamOn])
  }

  /** Every operation of the wrapper that may issue a command. */
  datatype Op =
    | KillOp
    | ByeOp
    | RestartOp
    | SpeedOp(speed: int)
    | TakeOffOp(height: int)
    | LandOp
    | TranslateOp(t: Translation, amount: int)
    | RotateOp(direction: string, degrees: int)
    | VideoOffOp
    | VideoOnOp

  function Step(d: Drone, op: Op): Drone {
    match op
    case KillOp => Kill(d)
    case ByeOp => Bye(d)
    case RestartOp => Restart(d)
    case SpeedOp(v) => Speed(d, v)
    case TakeOffOp(h) => TakeOff(d, h)
    case LandOp => Land(d)
    case TranslateOp(t, v) => Translate(d, t, v)
    case RotateOp(dir, x) => Rotate(d, dir, x)
    case VideoOffOp => VideoOff(d)
    case VideoOnOp => VideoOn(d)
  }

  /** Operations that depend on the transport being in the air. */
  predicate NeedsFlight(op: Op) {
    op.ByeOp? || op.LandOp? || op.TranslateOp? || op.RotateOp?
  }

  /** One call on the wrapper, with the flying flag the transport reports
      when it is made. The transport changes that flag on its own (after a
      takeoff or a landing completes); the wrapper only reads it. */
  datatype Call = Call(linkFlying: bool, op: Op)

  /** A run of calls: before each one, the link's flag is what the
      transport reported at that moment. */
  function Run(d: Drone, calls: seq<Call>): Drone
    decreases |calls|
  {
    if calls == [] then d
    else Run(Step(d.(link := d.link.(flying := calls[0].linkFlying)), calls[0].op), calls[1..])
  }

  /** Every operation issues at most two commands, only appends, and leaves
      the velocities and the RC flag alone; the wrapper never writes the
      transport's flying flag. */
  lemma StepFrame(d: Drone, op: Op)
    ensures Step(d, op).link.flying == d.link.flying
    ensures Step(d, op).(link := d.link) == d
    ensures d.link.trace <= Step(d, op).link.trace
    ensures |Step(d, op).link.trace| <= |d.link.trace| + 2
  {
  }

  /** A run only appends to the trace and never touches the velocities or
      the RC flag; the link's flag ends as the transport last reported it. */
  lemma {:induction false} RunFrame(d: Drone, calls: seq<Call>)
    ensures d.link.trace <= Run(d, calls).link.trace
    ensures Run(d, calls).(link := d.link) == d
    ensures Run(d, calls).link.flying == if calls == [] then d.link.flying else calls[|calls| - 1].linkFlying
    decreases |calls|
  {
    if calls != [] {
      var d1 := d.(link := d.link.(flying := calls[0].linkFlying));
      StepFrame(d1, calls[0].op);
      RunFrame(Step(d1, calls[0].op), calls[1..]);
    }
  }

  /** While the transport reports the drone on the ground, the flight-only
      operations issue nothing, however many. */
  lemma {:induction false} GroundedIgnoresFlightOps(d: Drone, calls: seq<Call>)
    requires forall i :: 0 <= i < |calls| ==> !calls[i].linkFlying && NeedsFlight(calls[i].op)
    ensures Run(d, calls).link.trace == d.link.trace
    ensures Run(d, calls).(link := d.link) == d
    decreases |calls|
  {
    if calls != [] {
      var d1 := d.(link := d.link.(flying := false));
      assert Step(d1, calls[0].op) == d1;
      GroundedIgnoresFlightOps(d1, calls[1..]);
    }
  }

  /** While the transport reports the drone in the air, take_off is refused
      no matter how often it is called. */
  lemma {:induction false} AirborneNeverTakesOffAgain(d: Drone, heights: seq<int>)
    ensures var calls := seq(|heights|, i requires 0 <= i < |heights| => Call(true, TakeOffOp(heights[i])));
      Run(d, calls).link.trace == d.link.trace && Run(d, calls).(link := d.link) == d
    decreases |heights|
  {
    if heights != [] {
      var calls := seq(|heights|, i requires 0 <= i < |heights| => Call(true, TakeOffOp(heights[i])));
      var rest := seq(|heights[1..]|, i requires 0 <= i < |heights[1..]| => Call(true, TakeOffOp(heights[1..][i])));
      assert calls[1..] == rest;
      var d1 := d.(link := d.link.(flying := true));
      assert Step(d1, calls[0].op) == d1;
      AirborneNeverTakesOffAgain(d1, heights[1..]);
    }
  }

  /** A flight: take_off while the transport reports the ground, then land
      once it reports the drone in the air, issues takeoff, the climb and
      the landing, in that order. */
  lemma TakeOffThenLand(d: Drone, h: int)
    ensures Run(d, [Call(false, TakeOffOp(h)), Call(true, LandOp)]).link.trace
         == d.link.trace + [Takeoff, MoveUp(h), Command.Land]
  {
    var d1 := TakeOff(d.(link := d.link.(flying := false)), h);
    var d2 := Land(d1.(link := d1.link.(flying := true)));
    assert [Call(false, TakeOffOp(h)), Call(true, LandOp)][1..] == [Call(true, LandOp)];
    assert Run(d, [Call(false, TakeOffOp(h)), Call(true, LandOp)]) == Run(d1, [Call(true, LandOp)]);
    assert Run(d1, [Call(true, LandOp)]) == Run(d2, []);
  }

  /** A rotation issues at most one command, and a clockwise one exactly for
      "cw", a counter-clockwise one exactly for "ccw". */
  lemma RotateDirections(d: Drone, direction: string, x: int)
    ensures var r := Rotate(d, direction, x);
      |Issued(d, r)| <= 1
      && (RotateClockwise(x) in Issued(d, r) <==> d.link.flying && direction == "cw")
      && (RotateCounterClockwise(x) in Issued(d, r) <==> d.link.flying && direction == "ccw")
  {
    var r := Rotate(d, direction, x);
    if d.link.flying && direction == "cw" {
      assert Issued(d, r) == [RotateClockwise(x)];
    } else if d.link.flying && direction == "ccw" {
      assert Issued(d, r) == [RotateCounterClockwise(x)];
    } else {
      assert Issued(d, r) == [];
    }
  }
}

=== FILE: transport.dfy ===
/** The vehicle link (the djitellopy `Tello` object) as the adapters see it:
    the commands they can issue on it, and the readings they can ask it for.
    The link itself is not modelled; an adapter's effect on it is the list of
    commands it issues, appended to a trace. */
module Transport {

  /** The four RC channels, in the order `send_rc_control` takes them. */
  datatype Channels = Channels(leftRight: int, forwardBack: int, upDown: int, yaw: int)

  /** One call on the link. Distances are in cm, angles in degrees; the
      adapters pass them through without clamping. */
  datatype Command =
    | Connect
    | End
    | Emergency
    | Reboot
    | SetSpeed(speed: int)
    | Takeoff
    | Land
    | MoveUp(cm: int)
    | MoveDown(cm: int)
    | MoveForward(cm: int)
    | MoveBack(cm: int)
    | MoveLeft(cm: int)
    | MoveRight(cm: int)
    | RotateClockwise(degrees: int)
    | RotateCounterClockwise(degrees: int)
    | SendRc(channels: Channels)
    | StreamOn
    | StreamOff

  /** What the link would answer to get_battery, get_barometer,
      get_temperature, get_highest_temperature and get_lowest_temperature. */
  datatype Sensors = Sensors(
    battery: real,
    barometer: real,
    temperature: real,
    highestTemperature: real,
    lowestTemperature: real)

  /** Number of times `c` occurs in `trace`. */
  function Count(trace: seq<Command>, c: Command): (n: nat)
    ensures n <= |trace|
    ensures n == 0 <==> c !in trace
  {
    if trace == [] then 0
    else Count(trace[..|trace| - 1], c) + (if trace[|trace| - 1] == c then 1 else 0)
  }

  /** Counting distributes over appending to a trace. */
  lemma {:induction false} CountAppend(a: seq<Command>, b: seq<Command>, c: Command)
    ensures Count(a + b, c) == Count(a, c) + Count(b, c)
    decreases |b|
  {
    if b == [] {
      assert a + b == a;
    } else {
      var b' := b[..|b| - 1];
      assert (a + b)[..|a + b| - 1] == a + b';
      CountAppend(a, b', c);
    }
  }
}

=== FILE: wrappers.dfy ===
/** Optional values and fallible results, used wherever the Python code returns
    `None` for "nothing" or would raise for a missing configuration. */
module Wrappers {

  datatype Option<+T> = None | Some(value: T)

  datatype Result<+T, +E> = Ok(value: T) | Err(error: E)
}
